=== FILE: README.md ===
# Workflow engine core, modelled in Dafny

This project models the execution core of a small workflow orchestrator. A
workflow is a YAML document: a name, a version, a map of variables and a list
of steps. Each step has an id and a type (`log`, `delay`, `condition`, `http`),
plus a free-form configuration and the ids of the step to go to next. The
engine works in four stages:

1. It parses the document into a `WorkflowDefinitionModel` of
   `StepDefinition`s.
2. It creates a PENDING `WorkflowInstance` and sets it RUNNING.
3. It walks the step chain from the first step. For each step it:
   - saves a `WorkflowStep` record as RUNNING;
   - runs the executor that the `StepExecutorRegistry` finds for the step's
     type;
   - saves the record COMPLETED with the result;
   - moves the instance's current step;
   - follows `next`, or `onTrue`/`onFalse` for a condition step.
4. It ends by saving the instance COMPLETED or FAILED.

Everything is modelled as immutable data and pure functions. Each part
follows a source file:

| Dafny file | What it models |
|---|---|
| `base.dfy` | Java `null` as `Option` and exceptions as `Failure`. Loaded YAML objects are `Value`. |
| `text.dfy` | `String.replace`, `Long.parseLong`, `Long.toString` and `String.valueOf`. |
| `step_definition.dfy` | `StepDefinition`: the branching rule and the typed config getters. |
| `definition_model.dfy` | `WorkflowDefinitionModel.findStep` and `getFirstStep`. |
| `yaml_parser.dfy` | `WorkflowYamlParser`, from a loaded tree. |
| `execution_context.dfy` | `ExecutionContext`. |
| `registry.dfy` | `StepExecutor.getStepType`/`canHandle` and `StepExecutorRegistry`. |
| `log_executor.dfy` | The log executor. |
| `delay_executor.dfy` | The delay executor. |
| `condition_executor.dfy` | The condition executor. |
| `step_dispatch.dfy` | `WorkflowExecutor.executeStep`. |
| `workflow_instance.dfy` | The `WorkflowInstance` stored record. |
| `workflow_step.dfy` | The `WorkflowStep` stored record. |
| `workflow_definition.dfy` | The `WorkflowDefinition` stored record. |
| `workflow_executor.dfy` | `executeWorkflow`, `executeWorkflowSteps`, `executeStepChain` and `updateInstanceCurrentStep`. |

The interpreter is a function of its inputs. It returns a `Run`, which has two
parts:

- the trace of every record handed to the repositories, in order;
- how the returned `Mono` ends:
  - `Finished` with the last instance saved;
  - `Aborted` with an exception;
  - `OutOfFuel` when the step budget ran out.

Outside behaviour is passed in through the `Env` record:

- the YAML loader;
- the SpEL evaluator;
- executors outside the model, such as HTTP;
- `toString` of lists and maps;
- the order of hash-map iteration;
- the clock;
- the UUID generator.

The clock and UUID generator are indexed by the number of saves made so far.

The central results are in `WorkflowExecution`.

- **`ExecuteWorkflowEnds`.** For every definition that parses, every run does
  all of the following:
  - it starts with the PENDING instance;
  - every record in it belongs to that run and carries the run's input;
  - every instance record before the last one is unfinished;
  - a finished run ends with a COMPLETED or FAILED instance;
  - a FAILED run's last step record failed with the same message.
- **`ChainEnds`.** This is the inductive core behind `ExecuteWorkflowEnds`. It
  is stated for any round function that keeps the chain's invariants.
  `RoundsKeep` proves that the engine's rounds do keep them.

## Model

| member | source | states |
|---|---|---|
| `StepDefinitions.NextStep` | workflow-engine/src/main/java/com/workflow/engine/model/StepDefinition.java:13-18 | a `condition` step goes to `onTrue` when the flag is set and `onFalse` otherwise; every other type goes to `next` whatever the flag |
| `StepDefinitions.ConfigValue` | workflow-engine/src/main/java/com/workflow/engine/model/StepDefinition.java:20-26 | an absent or null entry reads as null (and only then); a present value of the requested class is returned unchanged; a value of another class is a `ClassCastException` and is never converted |
| `StepDefinitions.ConfigString` | workflow-engine/src/main/java/com/workflow/engine/model/StepDefinition.java:28-30 | succeeds, is null, or is a given string exactly when `getConfigValue` at `String` does |
| `StepDefinitions.ConfigInt` | workflow-engine/src/main/java/com/workflow/engine/model/StepDefinition.java:32-34 | agrees with `getConfigValue` at `Integer`; a present result lies in the 32-bit range |
| `StepDefinitions.ConfigBoolean` | workflow-engine/src/main/java/com/workflow/engine/model/StepDefinition.java:36-38 | agrees with `getConfigValue` at `Boolean` |
| `StepDefinitions.OtherScalarOnlyObject` | workflow-engine/src/main/java/com/workflow/engine/model/StepDefinition.java:20-38 | a scalar that is neither string, integer nor boolean (a floating-point number, say) fails every typed getter with a `ClassCastException` and is returned only as an `Object` |
| `DefinitionModels.FindStep` | workflow-engine/src/main/java/com/workflow/engine/model/WorkflowDefinitionModel.java:12-17 | a found step carries the requested id, and every step before it carries another id; the lookup fails with "Step not found: <id>" exactly when no step has the id; a step with a null id that is reached first throws `NullPointerException` |
| `DefinitionModels.FindStepEarliest` | workflow-engine/src/main/java/com/workflow/engine/model/WorkflowDefinitionModel.java:13-15 | with duplicate ids, the step found is at or before any step carrying the id |
| `DefinitionModels.FindFirstStep` | workflow-engine/src/main/java/com/workflow/engine/model/WorkflowDefinitionModel.java:12-21 | looking up the first step's own id gives the first step |
| `DefinitionModels.FirstStep` | workflow-engine/src/main/java/com/workflow/engine/model/WorkflowDefinitionModel.java:19-21 | null exactly for an empty step list; otherwise element 0 in document order |
| `YamlParser.ParseStep` | workflow-engine/src/main/java/com/workflow/engine/interpreter/WorkflowYamlParser.java:39-52 | `id`, `type`, `next`, `onTrue` and `onFalse` are copied verbatim, with absent ones becoming null and no presence check; the config holds exactly the other keys with their values unchanged; a step with a null config value, or that is not a map, is rejected; conversely, a map whose control keys are strings or absent and whose other entries are non-null always parses; a null entry is a `NullPointerException` and any other non-map a `ClassCastException` |
| `YamlParser.ParseSteps` | workflow-engine/src/main/java/com/workflow/engine/interpreter/WorkflowYamlParser.java:26-30 | the parsed list keeps document order and count, element by element; it fails exactly when some entry fails, with the exception of the first entry that fails, every entry before it parsing |
| `YamlParser.ParseTree` | workflow-engine/src/main/java/com/workflow/engine/interpreter/WorkflowYamlParser.java:19-32 | the name is copied verbatim and may be null; the version defaults to "1.0.0"; the variables default to the empty map and are otherwise exactly what the map cast of the `variables` entry gives (the map itself, or null); the steps must be a list; a null `steps` fails; the tree parses exactly when it is a map whose name is a string or null, whose version and variables, where present, are a string or null and a map or null, and whose `steps` is a list of entries that all parse; a load failure is passed on unchanged |
| `YamlParser.ParseWorkflow` | workflow-engine/src/main/java/com/workflow/engine/interpreter/WorkflowYamlParser.java:17-37 | succeeds exactly when the tree reads as a model; any failure, an unloadable text included, is an `IllegalArgumentException` whose message is "Invalid workflow YAML: " followed by the cause's message |
| `YamlParser.ParseUnparse` | workflow-engine/src/main/java/com/workflow/engine/interpreter/WorkflowYamlParser.java:17-52 | round trip: writing a model as a tree and parsing it gives the model back, whenever its steps can be written (no null config values, no config key that is a control key) |
| `YamlParser.ParseUnparseSteps` | workflow-engine/src/main/java/com/workflow/engine/interpreter/WorkflowYamlParser.java:26-30 | round trip for the step list |
| `YamlParser.ParseUnparseStep` | workflow-engine/src/main/java/com/workflow/engine/interpreter/WorkflowYamlParser.java:39-52 | round trip for one step |
| `YamlParser.ConditionalStepParses` | workflow-engine/src/test/java/com/workflow/engine/interpreter/WorkflowYamlParserTest.java:70-87 | the example condition step parses to its id, type `condition`, both branches and no `next`, with only `expression` left as config |
| `YamlParser.ConditionalDocumentParses` | workflow-engine/src/test/java/com/workflow/engine/interpreter/WorkflowYamlParserTest.java:70-87 | a document with a name and steps but neither version nor variables parses, with version "1.0.0" and the empty variable map |
| `ExecutionContexts.NewContext` | workflow-engine/src/main/java/com/workflow/engine/model/ExecutionContext.java:14-17 | a new context holds exactly the initial variables, with no current step, a null last result and the flag false |
| `ExecutionContexts.SetVariable` | workflow-engine/src/main/java/com/workflow/engine/model/ExecutionContext.java:27-33 | afterwards the name reads back as the value, every other name reads as before, and no other field changes |
| `ExecutionContexts.SetCurrentStepId` | workflow-engine/src/main/java/com/workflow/engine/model/ExecutionContext.java:35-41 | reading the current step id back gives the id set; nothing else changes |
| `ExecutionContexts.SetLastResult` | workflow-engine/src/main/java/com/workflow/engine/model/ExecutionContext.java:47-51 | the last result and the `result` variable both become the value; the variable names are the old ones plus `result`; every other variable, the id, the current step and the flag are unchanged |
| `ExecutionContexts.SetConditionResult` | workflow-engine/src/main/java/com/workflow/engine/model/ExecutionContext.java:53-59 | the flag becomes the value and is the only field that changes |
| `ExecutionContexts.Copy` | workflow-engine/src/main/java/com/workflow/engine/model/ExecutionContext.java:61-67 | the copy equals the original field by field |
| `Registry.NewRegistry` | workflow-engine/src/main/java/com/workflow/engine/registry/StepExecutorRegistry.java:16-19 | construction succeeds exactly when no two executors declare the same type; the keys are then exactly the declared types, each mapped to its executor; a duplicate is an `IllegalStateException`, never a silent overwrite |
| `Registry.AppendExecutor` | workflow-engine/src/main/java/com/workflow/engine/registry/StepExecutorRegistry.java:17-18 | adding an executor adds its type to the declared ones, and the list stays duplicate-free exactly when that type is new |
| `Registry.GetExecutor` | workflow-engine/src/main/java/com/workflow/engine/registry/StepExecutorRegistry.java:21-27 | it succeeds exactly for a supported type, with an executor that `canHandle` that type; otherwise it fails with "No executor found for step type: <type>" |
| `Registry.HasExecutor` | workflow-engine/src/main/java/com/workflow/engine/registry/StepExecutorRegistry.java:29-31 | holds exactly when `getExecutor` succeeds |
| `Registry.LookupAfterConstruction` | workflow-engine/src/main/java/com/workflow/engine/registry/StepExecutorRegistry.java:16-27 | a registry built from a list finds a type exactly when a listed executor declares it, and then finds that executor |
| `Registry.StandardRegistryBuilds` | workflow-engine/src/main/java/com/workflow/engine/registry/StepExecutorRegistry.java:16-35 | the four built-in executors build a registry whose supported types are exactly log, delay, condition and http |
| `StepDispatch.StandardLookup` | workflow-engine/src/main/java/com/workflow/engine/registry/StepExecutorRegistry.java:21-27 | in the standard registry each built-in type maps to its own executor |
| `DelayExecutor.ParseDuration` | workflow-engine/src/main/java/com/workflow/engine/executor/impl/DelayStepExecutor.java:33-53 | null or empty is one second; the only failure is "Invalid duration format: <text>"; with an `s`, `m` or `h` suffix it fails exactly when the rest is not a long literal; without a suffix, exactly when the whole text is not one |
| `DelayExecutor.SecondsSuffix` | workflow-engine/src/main/java/com/workflow/engine/executor/impl/DelayStepExecutor.java:40-41 | "<n>s" is n seconds, for every integer n |
| `DelayExecutor.MinutesSuffix` | workflow-engine/src/main/java/com/workflow/engine/executor/impl/DelayStepExecutor.java:42-43 | "<n>m" is 60·n seconds |
| `DelayExecutor.HoursSuffix` | workflow-engine/src/main/java/com/workflow/engine/executor/impl/DelayStepExecutor.java:44-45 | "<n>h" is 3600·n seconds |
| `DelayExecutor.NoUnitIsSeconds` | workflow-engine/src/main/java/com/workflow/engine/executor/impl/DelayStepExecutor.java:46-48 | a bare number is read as seconds |
| `DelayExecutor.MillisecondsRejected` | workflow-engine/src/main/java/com/workflow/engine/executor/impl/DelayStepExecutor.java:40-52 | any text ending in "ms" is rejected as an invalid duration, since only the last character is a unit |
| `DelayExecutor.Execute` | workflow-engine/src/main/java/com/workflow/engine/executor/impl/DelayStepExecutor.java:21-31 | succeeds exactly when the duration is a string (or absent) that parses; then `delayedMs` is the parsed seconds times 1000, `delayed` is its ISO-8601 text, and `timestamp` is the clock reading |
| `DelayExecutor.DelayedMsOfSeconds` | workflow-engine/src/main/java/com/workflow/engine/executor/impl/DelayStepExecutor.java:22-28 | a step configured with "<n>s" succeeds and reports `delayedMs` = n·1000 |
| `DelayExecutor.DurationTextZero` | workflow-engine/src/main/java/com/workflow/engine/executor/impl/DelayStepExecutor.java:27 | a zero duration is written "PT0S" |
| `DelayExecutor.DurationTextSeconds` | workflow-engine/src/main/java/com/workflow/engine/executor/impl/DelayStepExecutor.java:27 | under a minute, the text is "PT<n>S" |
| `DelayExecutor.DurationTextMinutes` | workflow-engine/src/main/java/com/workflow/engine/executor/impl/DelayStepExecutor.java:27 | whole minutes under an hour are written "PT<m>M" |
| `DelayExecutor.DurationTextHours` | workflow-engine/src/main/java/com/workflow/engine/executor/impl/DelayStepExecutor.java:27 | whole hours are written "PT<h>H", negative ones included |
| `Text.Show` | workflow-engine/src/main/java/com/workflow/engine/executor/impl/LogStepExecutor.java:61 | `String.valueOf`: null prints "null", a string prints itself, a number prints as text that `Long.parseLong` reads back as that number, and any other scalar prints its own text |
| `LogExecutor.ReplaceVariablesMeaning` | workflow-engine/src/main/java/com/workflow/engine/executor/impl/LogStepExecutor.java:56-65 | when the message is a template of literal text and placeholders, no variable name contains `$` or `}`, and no printed value contains `$`, then the substitution loop equals the reference expansion in any map order: every placeholder of a variable becomes its printed value and every other placeholder stays literal |
| `LogExecutor.NoPlaceholderUnchanged` | workflow-engine/src/main/java/com/workflow/engine/executor/impl/LogStepExecutor.java:56-65 | a message with no "${" is returned unchanged, whatever the variables |
| `LogExecutor.UnknownPlaceholderKept` | workflow-engine/src/main/java/com/workflow/engine/executor/impl/LogStepExecutor.java:56-65 | "Hello ${name} ${missing}" with only `name` set replaces the first placeholder and keeps the second literally |
| `LogExecutor.NestedPlaceholderOrderMatters` | workflow-engine/src/main/java/com/workflow/engine/executor/impl/LogStepExecutor.java:56-65 | without the template precondition the result depends on map order: "${${a}}" with a = "b" and b = "c" gives "c" in one order and "${b}" in the other |
| `LogExecutor.Execute` | workflow-engine/src/main/java/com/workflow/engine/executor/impl/LogStepExecutor.java:24-54 | fails only when message or level is not a string; the result holds exactly message, level, timestamp and instance id; the level is as configured (default "info") and not lower-cased; the message is the substituted one |
| `LogExecutor.LogDefaults` | workflow-engine/src/main/java/com/workflow/engine/executor/impl/LogStepExecutor.java:25-34 | a step with neither message nor level succeeds and logs "Log step executed" at "info" |
| `ConditionExecutor.Execute` | workflow-engine/src/main/java/com/workflow/engine/executor/impl/ConditionStepExecutor.java:26-54 | a non-string expression is a cast failure; a null or empty one fails with the "requires an 'expression'" message; an evaluator failure is rethrown naming the expression; it succeeds exactly when a non-empty expression evaluates; the flag stored and reported is `result != null && result`, evaluated over the context's variables |
| `ConditionExecutor.ConditionSelectsBranch` | workflow-engine/src/main/java/com/workflow/engine/executor/impl/ConditionStepExecutor.java:39-48 | after a successful evaluation the step goes to `onTrue` exactly when the expression evaluated to true; a null result goes to `onFalse` |
| `ConditionExecutor.ConditionOnlySetsFlag` | workflow-engine/src/main/java/com/workflow/engine/executor/impl/ConditionStepExecutor.java:43-48 | the executor changes the context's flag and nothing else, and the reported `result` equals the stored flag |
| `StepDispatch.Wrapped` | workflow-engine/src/main/java/com/workflow/engine/executor/WorkflowExecutor.java:126-133 | an executor's synchronous throw becomes "Failed to execute step: <id>"; a value passes through |
| `StepDispatch.Execute` | workflow-engine/src/main/java/com/workflow/engine/executor/WorkflowExecutor.java:126-133 | an unknown type fails with the wrapped message; success needs a supported type; executors change nothing in the context but the flag, and only a step of condition type can change the flag; a failure keeps its own message only when an external executor signalled it; only an external executor can complete empty |
| `StepDispatch.UnknownTypeFails` | workflow-engine/src/main/java/com/workflow/engine/executor/WorkflowExecutor.java:126-132 | a step whose type is null or unsupported fails with "Failed to execute step: <id>" |
| `StepDispatch.LogStepExpands` | workflow-engine/src/main/java/com/workflow/engine/executor/impl/LogStepExecutor.java:24-65 | a log step whose message is a template over suitable variables logs the template's expansion, in any map order, leaving the context unchanged |
| `StepDispatch.ConditionStepSetsFlag` | workflow-engine/src/main/java/com/workflow/engine/executor/impl/ConditionStepExecutor.java:26-54 | a condition step whose expression evaluates succeeds, with the context's flag set to the evaluation's truth |
| `WorkflowInstances.Create` | workflow-storage/src/main/java/com/workflow/storage/entity/WorkflowInstance.java:22-36 | a new instance is PENDING, with null step, output, error and completion time, and `startedAt == updatedAt` |
| `WorkflowInstances.WithStatus` | workflow-storage/src/main/java/com/workflow/storage/entity/WorkflowInstance.java:38-44 | replaces the status; the completion time is stamped exactly for COMPLETED or FAILED and otherwise kept; the run's identity, step, output and error are kept |
| `WorkflowInstances.WithCurrentStep` | workflow-storage/src/main/java/com/workflow/storage/entity/WorkflowInstance.java:46-51 | only the current step and the update time change |
| `WorkflowInstances.WithOutput` | workflow-storage/src/main/java/com/workflow/storage/entity/WorkflowInstance.java:53-58 | only the output and the update time change |
| `WorkflowInstances.WithError` | workflow-storage/src/main/java/com/workflow/storage/entity/WorkflowInstance.java:60-65 | FAILED with the message and a completion time; the current step and output are kept |
| `WorkflowInstances.UpdatesKeepRun` | workflow-storage/src/main/java/com/workflow/storage/entity/WorkflowInstance.java:38-65 | any sequence of updates keeps id, definition id, input and start time, and a finished record always has a completion time |
| `WorkflowInstances.StatusSticks` | workflow-storage/src/main/java/com/workflow/storage/entity/WorkflowInstance.java:46-58 | step and output updates never change status, error or completion time |
| `WorkflowSteps.Create` | workflow-storage/src/main/java/com/workflow/storage/entity/WorkflowStep.java:25-41 | a new record is PENDING with 0 retries of at most 3, and with null output, error and times |
| `WorkflowSteps.WithStatus` | workflow-storage/src/main/java/com/workflow/storage/entity/WorkflowStep.java:43-50 | RUNNING stamps the start time; COMPLETED or FAILED stamps the completion time; any other status keeps both; the step's identity is kept |
| `WorkflowSteps.WithResult` | workflow-storage/src/main/java/com/workflow/storage/entity/WorkflowStep.java:52-57 | COMPLETED with the result as output, keeping start time and error |
| `WorkflowSteps.WithError` | workflow-storage/src/main/java/com/workflow/storage/entity/WorkflowStep.java:59-64 | FAILED with the message, keeping output and start time |
| `WorkflowSteps.WithRetry` | workflow-storage/src/main/java/com/workflow/storage/entity/WorkflowStep.java:66-71 | back to PENDING with output, error and times cleared; one more retry counted; the maximum is kept |
| `WorkflowSteps.Increment` | workflow-storage/src/main/java/com/workflow/storage/entity/WorkflowStep.java:69 | `int` increment: one more, except that the largest `int` wraps to the smallest; always one more modulo 2^32 |
| `WorkflowSteps.RetriesCount` | workflow-storage/src/main/java/com/workflow/storage/entity/WorkflowStep.java:66-71 | n retries of a fresh record count n, while n fits in an `int`, and keep the step's identity |
| `WorkflowSteps.RetryCountWraps` | workflow-storage/src/main/java/com/workflow/storage/entity/WorkflowStep.java:69 | one retry more than `int` holds wraps the count to the smallest `int` |
| `WorkflowDefinitions.Create` | workflow-storage/src/main/java/com/workflow/storage/entity/WorkflowDefinition.java:19-30 | name, YAML text and version are copied verbatim; the definition is active; `createdAt == updatedAt` |
| `WorkflowExecution.DispatcherConfined` | workflow-engine/src/main/java/com/workflow/engine/executor/WorkflowExecutor.java:126-129 | every executor behind `executeStep` leaves the context unchanged except for the condition flag |
| `WorkflowExecution.InputTextIsInput` | workflow-engine/src/main/java/com/workflow/engine/executor/WorkflowExecutor.java:91-97 | the input stored in a step record is the run's raw input, while the `input` variable holds it |
| `WorkflowExecution.Complete` | workflow-engine/src/main/java/com/workflow/engine/executor/WorkflowExecutor.java:82-85 | completing saves the instance COMPLETED as the last record, keeping its run identity and current step |
| `WorkflowExecution.Fail` | workflow-engine/src/main/java/com/workflow/engine/executor/WorkflowExecutor.java:119-123 | the step's RUNNING snapshot is re-saved FAILED, then the pre-step instance is saved FAILED, both with the exception's message; the instance's current step is the one it had before the step |
| `WorkflowExecution.AttemptStepKeeps` | workflow-engine/src/main/java/com/workflow/engine/executor/WorkflowExecutor.java:87-123 | one round keeps the chain's invariants, or stops the run as a finished run must end |
| `WorkflowExecution.RoundsKeep` | workflow-engine/src/main/java/com/workflow/engine/executor/WorkflowExecutor.java:78-124 | the rounds keep the invariants for any executors that only touch the condition flag |
| `WorkflowExecution.ChainEnds` | workflow-engine/src/main/java/com/workflow/engine/executor/WorkflowExecutor.java:78-124 | every chain run extends the trace and keeps every record in the run; every instance record is RUNNING, except a PENDING first record and a finished run's last, which is COMPLETED or FAILED, so no instance ever goes back to PENDING; a FAILED end follows a failed step record with the same message; the only abort is a `NullPointerException` |
| `WorkflowExecution.MoreFuelSameRun` | workflow-engine/src/main/java/com/workflow/engine/executor/WorkflowExecutor.java:78-124 | the step budget only cuts runs short: a run that ends within it is the same run under any larger budget |
| `WorkflowExecution.WorkflowStepsEnd` | workflow-engine/src/main/java/com/workflow/engine/executor/WorkflowExecutor.java:55-76 | from a saved PENDING instance, the run ends as every chain run does: the PENDING record first, RUNNING records after it, and a finished run's terminal record last |
| `WorkflowExecution.EndsStartsWith` | workflow-engine/src/main/java/com/workflow/engine/executor/WorkflowExecutor.java:47-49 | a run that ends properly from the PENDING save starts with that save |
| `WorkflowExecution.EndsStatuses` | workflow-engine/src/main/java/com/workflow/engine/executor/WorkflowExecutor.java:68-123 | in a run that ends properly, the instance records after the first are RUNNING, except the last record of a finished run, which is COMPLETED or FAILED |
| `WorkflowExecution.ExecuteWorkflowEnds` | workflow-engine/src/main/java/com/workflow/engine/executor/WorkflowExecutor.java:41-53 | for a definition that parses, the run starts with the PENDING instance and ends as every chain run does; every later instance record is RUNNING except the last one of a finished run, which is COMPLETED or FAILED |
| `WorkflowExecution.AttemptStepSavesRunning` | workflow-engine/src/main/java/com/workflow/engine/executor/WorkflowExecutor.java:88-99 | whatever the executor does, a round keeps the saves so far and saves the step's RUNNING record first |
| `WorkflowExecution.AdvanceExtends` | workflow-engine/src/main/java/com/workflow/engine/executor/WorkflowExecutor.java:106-123 | leaving a step, to the next one, to completion or to the error handler, only appends to the saves |
| `WorkflowExecution.AfterResultExtends` | workflow-engine/src/main/java/com/workflow/engine/executor/WorkflowExecutor.java:103-123 | saving a step's result, moving the instance to it and leaving the step only append to the saves |
| `WorkflowExecution.ChainExtends` | workflow-engine/src/main/java/com/workflow/engine/executor/WorkflowExecutor.java:78-124 | a chain whose rounds only append keeps the saves it starts from and begins with what its first round saves |
| `WorkflowExecution.ChainStartsWithStep` | workflow-engine/src/main/java/com/workflow/engine/executor/WorkflowExecutor.java:88-99 | with budget left, the chain saves its first step's RUNNING record right after the saves so far |
| `WorkflowExecution.RunningRecordOf` | workflow-engine/src/main/java/com/workflow/engine/executor/WorkflowExecutor.java:91-99 | the record saved as a step starts is RUNNING, belongs to the instance and describes the step |
| `WorkflowExecution.RunningChainStart` | workflow-engine/src/main/java/com/workflow/engine/executor/WorkflowExecutor.java:74-99 | the chain run from the RUNNING instance saved after the PENDING one keeps both records and, with budget left, saves its first step's RUNNING record next |
| `WorkflowExecution.WorkflowStepsStart` | workflow-engine/src/main/java/com/workflow/engine/executor/WorkflowExecutor.java:67-99 | for a definition with steps and variables, the PENDING instance is followed by the same instance RUNNING and then by the RUNNING record of the first step in document order |
| `WorkflowExecution.StartsAtFirstStep` | workflow-engine/src/main/java/com/workflow/engine/executor/WorkflowExecutor.java:41-76 | the same from `executeWorkflow`: the second save is the instance RUNNING and the chain starts at the first step |
| `WorkflowExecution.ParseFailureSavesNothing` | workflow-engine/src/main/java/com/workflow/engine/executor/WorkflowExecutor.java:44-49 | a parse failure saves no record and fails with the parser's "Invalid workflow YAML: " exception |
| `WorkflowExecution.EmptyWorkflowCompletes` | workflow-engine/src/main/java/com/workflow/engine/executor/WorkflowExecutor.java:68-71 | with no steps, the instance goes from PENDING straight to COMPLETED: two saves, no RUNNING record, no step records, no current step |
| `WorkflowExecution.NullVariablesAbort` | workflow-engine/src/main/java/com/workflow/engine/executor/WorkflowExecutor.java:58 | `variables: null` saves the PENDING instance and then aborts with a `NullPointerException` |
| `WorkflowExecution.ExecutorFailureFailsRun` | workflow-engine/src/main/java/com/workflow/engine/executor/WorkflowExecutor.java:119-123 | a failing executor stops the chain: the RUNNING record, then the record FAILED and the instance FAILED with the same message; the instance keeps its previous current step |
| `WorkflowExecution.UnknownStepFailsRun` | workflow-engine/src/main/java/com/workflow/engine/executor/WorkflowExecutor.java:126-132 | a step of unknown type fails the run with "Failed to execute step: <id>" on both the step record and the instance |
| `WorkflowExecution.LastStepCompletes` | workflow-engine/src/main/java/com/workflow/engine/executor/WorkflowExecutor.java:103-111 | a successful step with no next id saves the step COMPLETED, then the instance pointing at it, then the instance COMPLETED still pointing at it |
| `WorkflowExecution.StepContinuesAtNext` | workflow-engine/src/main/java/com/workflow/engine/executor/WorkflowExecutor.java:100-116 | a successful step whose next id names a step of the definition continues at that step; the context's last result and its `result` variable are the step's result; the step is saved COMPLETED with the printed result, and the instance, still RUNNING and of the same run, points at the step just finished |
| `WorkflowExecution.ConditionStepBranches` | workflow-engine/src/main/java/com/workflow/engine/executor/WorkflowExecutor.java:106-116 | a successful condition step continues at the step its flag selects, carrying the flag; the instance's current step is then the condition step itself, the step just finished |
| `WorkflowExecution.ConditionBranchTaken` | workflow-engine/src/main/java/com/workflow/engine/executor/WorkflowExecutor.java:100-116 | with the registry's condition executor, the chain continues at `onTrue` when the expression evaluated to true and at `onFalse` otherwise |
| `WorkflowExecution.MissingNextStepFails` | workflow-engine/src/main/java/com/workflow/engine/executor/WorkflowExecutor.java:104-122 | a next id missing from the definition fails the run with "Step not found: <id>": the COMPLETED record and the moved instance are saved first; then the RUNNING snapshot is re-saved FAILED without output; the instance fails still naming the previous step |

## Left out

- The process boundary is not modelled:
  - Reactor threading and asynchrony;
  - the timer in `Mono.delay`;
  - logging;
  - the repositories' I/O.
- A repository save returns the record it was given, and a save is an entry in the trace.
- Clock readings (`LocalDateTime.now`, `System.currentTimeMillis`) and `UUID.randomUUID` are parameters.
  - One `with...` call that reads the clock twice is given a single reading.
  - A reading is indexed by the number of saves made before the record carrying it is saved, which does not follow the source's order everywhere. The argument of `.then(...)` is built eagerly (WorkflowExecutor.java, the result and error handlers), so `withCurrentStep` and the failed instance's `withError` read the clock before the preceding save in the source, one save earlier than in the model. The executor's timestamp and the step's completion time are two readings in the source and one in the model. No property of the model depends on which reading a timestamp gets.
  - The definition's id in `WorkflowDefinitions.Create` is a parameter.
- Text loading by SnakeYAML is not modelled. The parser starts from a loaded tree or from a load failure.
- SpEL parsing and evaluation are an uninterpreted evaluator.
- `HttpStepExecutor` is not part of this model. Its step type is served by an opaque executor, which:
  - returns a value;
  - throws;
  - signals an error;
  - or completes empty.
- Exceptions raised by the JVM or a library (`ClassCastException`, `NullPointerException`, SnakeYAML's errors) are identified by class name. Their `getMessage()` text is not modelled.
- `toString` of lists and maps (`step.config().toString()`, `String.valueOf` of a compound value) is a parameter.
- The hash map's iteration order is a parameter. This covers the order of `replaceVariables` and of `getSupportedStepTypes`, which is modelled as a set.
- `DelayExecutor.ParseDuration` reads only the ASCII digits '0' to '9'. `Long.parseLong` reads digits through `Character.digit`, so it also accepts the decimal digits of other scripts: "５s" (a full-width five) is five seconds in the source but an invalid duration in the model. The same holds for `Text.ParseLong`.
- `Base.Value` has string keys only. A YAML mapping with a null key (`~: x`) or a number as key cannot be written. In the source, a null key inside a step throws `NullPointerException` from the control-key check, and a number key is kept in the config.
- `Registry.NewRegistry` gives a duplicate type the message "Duplicate key <type>". The JDK's message goes on with " (attempted merging values a and b)", which names the two executors by their `toString`, and that part is not modelled.
- `long` overflow is not modelled, because numbers are unbounded:
  - in `Long.parseLong`, which accepts literals of any length;
  - in `Duration` arithmetic.
- Durations are whole seconds, which is all that `parseDuration` produces.
- Cyclic step chains never end in the source. The interpreter is bounded by `fuel`, and a run that exhausts it reports `OutOfFuel`. `MoreFuelSameRun` shows that the bound never changes a run that ends.
- `WorkflowExecution.ExecuteWorkflow` and `ExecuteStepChain` carry no `ensures` of their own. Their properties are the `WorkflowExecution` lemmas above.
- `LogExecutor.ReplaceVariables` carries no `ensures` of its own. Its meaning is stated by `LogExecutor.ReplaceVariablesMeaning`, only for messages that read as well-formed templates over variables whose names contain no `$` or `}` and whose printed values contain no `$`. Without that precondition the result depends on map order, as `LogExecutor.NestedPlaceholderOrderMatters` shows.
- `ExecutionContexts.Copy`: `copy()` is shallow in the source (values are shared). With immutable values the copy and the original can never share later writes, so there is nothing more to state.
- `withStatus(null)` throws in the source. Statuses are never null in the model, because the engine passes only constants.
- The instance's `withOutput` is modelled but never used by the engine.
- The step record's `withRetry` is modelled but never used by the engine, and `maxRetries` is not enforced anywhere.

=== FILE: base.dfy ===
/** Shared vocabulary of the workflow engine model: Java's nullable references
    as `Option`, exceptions as `Failure`, a computation that may throw as
    `Result`, and the dynamically typed objects that a loaded YAML tree (and a
    step's result) is made of as `Value`. */
module Base {

  /** A Java reference that may be `null`. */
  datatype Option<+T> = None | Some(value: T) {

    function GetOr(default: T): T {
      match this
      case Some(v) => v
      case None => default
    }
  }

  /** An exception. Messages the project builds itself are modelled exactly;
      an exception raised by the JVM or a library (a failed cast, a null
      dereference, a YAML syntax error) is identified by its class only,
      because its wording belongs to that code. */
  datatype Failure =
    | IllegalArgument(message: string)
    | IllegalState(message: string)
    | Runtime(message: string)
    | Library(exception: string)
  {
    /** `Throwable.getMessage()`. */
    function Message(): string {
      match this
      case IllegalArgument(m) => m
      case IllegalState(m) => m
      case Runtime(m) => m
      case Library(e) => e
    }
  }

  const ClassCast: Failure := Library("java.lang.ClassCastException")
  const NullPointer: Failure := Library("java.lang.NullPointerException")

  /** A computation that returns a value or throws. */
  datatype Result<+T> = Ok(value: T) | Err(failure: Failure) {

    predicate IsFailure() {
      Err?
    }

    function PropagateFailure<U>(): Result<U>
      requires Err?
    {
      Err(failure)
    }

    function Extract(): T
      requires Ok?
    {
      value
    }
  }

  /** A Java object as found in a loaded YAML tree, a step configuration, a
      context variable or a step result: `null`, `Boolean`, an integral
      number, `String`, `List`, `Map` with string keys, or any other scalar
      the YAML library builds (a `Double`, a `Date`, a `byte[]`), kept as
      the text its `toString` gives. */
  datatype Value =
    | Null
    | Bool(b: bool)
    | Int(i: int)
    | Str(s: string)
    | List(items: seq<Value>)
    | Dict(entries: map<string, Value>)
    | Other(text: string)

  /** `Map.get`: the stored value, or `null` when the key is absent. */
  function Get(m: map<string, Value>, key: string): (r: Value)
    ensures key in m ==> r == m[key]
    ensures key !in m ==> r == Null
  {
    if key in m then m[key] else Null
  }

  /** A Java string that may be `null`, as a `Value`. */
  function FromNullable(s: Option<string>): (v: Value)
    ensures v == Null <==> s == None
    ensures s.Some? ==> v == Str(s.value)
  {
    match s
    case None => Null
    case Some(t) => Str(t)
  }

  /** String concatenation of a possibly-null string: `"x" + null` is `"xnull"`. */
  function Nullable(s: Option<string>): string {
    s.GetOr("null")
  }
}

=== FILE: condition_executor.dfy ===
/** `ConditionStepExecutor`: evaluates the step's boolean expression over the
    context variables and records the outcome in the context's condition
    flag, which steers the branch a condition step takes. The expression
    language itself (SpEL) is not modelled: its evaluator is a parameter. */
module ConditionExecutor {
  import opened Base
  import opened StepDefinitions
  import opened ExecutionContexts

  /** What the evaluator makes of an expression: a `Boolean` that may be
      null, or any exception (a syntax error, an unknown property, a value
      that does not convert to `Boolean`). */
  datatype Evaluation = Evaluated(result: Option<bool>) | EvaluationFailed

  type Evaluator = (string, map<string, Value>) -> Evaluation

  const ExpressionKey := "expression"
  const ResultKey := "result"
  const EvaluatedAtKey := "evaluatedAt"

  const MissingExpression: Failure := IllegalArgument("Condition step requires an 'expression' parameter")

  function EvaluationError(expression: string): Failure {
    IllegalArgument("Failed to evaluate condition expression: " + expression)
  }

  /** The flag a successful evaluation sets: a null result counts as false. */
  predicate Holds(e: Evaluation) {
    e == Evaluated(Some(true))
  }

  /** `execute`: the result map and the context with its flag set. A
      non-string expression throws a `ClassCastException`, an absent or empty
      one an `IllegalArgumentException`, and any evaluator exception is
      rethrown naming the expression; in those cases the flag is not
      touched. */
  function Execute(step: StepDefinition, ctx: Context, evaluate: Evaluator, now: int): (r: Result<(Value, Context)>)
    ensures ConfigString(step, ExpressionKey).Err? ==> r == Err(ClassCast)
    ensures ConfigString(step, ExpressionKey) == Ok(None) || ConfigString(step, ExpressionKey) == Ok(Some(""))
            ==> r == Err(MissingExpression)
    ensures r.Ok? <==> exists e :: ConfigString(step, ExpressionKey) == Ok(Some(e)) && e != "" &&
                                   evaluate(e, ctx.variables).Evaluated?
    ensures forall e :: (ConfigString(step, ExpressionKey) == Ok(Some(e)) && e != "" &&
                         evaluate(e, ctx.variables) == EvaluationFailed) ==> r == Err(EvaluationError(e))
    ensures r.Ok? ==> var e := ConfigString(step, ExpressionKey).value.value;
                      var flag := Holds(evaluate(e, ctx.variables));
                      && r.value.0 == Dict(map[ExpressionKey := Str(e), ResultKey := Bool(flag), EvaluatedAtKey := Int(now)])
                      && r.value.1 == SetConditionResult(ctx, flag)
  {
    var expression :- ConfigString(step, ExpressionKey);
    if expression.None? || expression.value == "" then Err(MissingExpression)
    else
      var e := expression.value;
      match evaluate(e, ctx.variables)
      case EvaluationFailed => Err(EvaluationError(e))
      case Evaluated(result) =>
        var flag := result == Some(true);
        Ok((Dict(map[ExpressionKey := Str(e), ResultKey := Bool(flag), EvaluatedAtKey := Int(now)]),
            SetConditionResult(ctx, flag)))
  }

  /** A condition step that succeeds continues at `onTrue` exactly when the
      expression evaluated to true, and at `onFalse` otherwise, a null
      result included. */
  lemma ConditionSelectsBranch(step: StepDefinition, ctx: Context, evaluate: Evaluator, now: int, e: string)
    requires step.stepType == Some(ConditionType)
    requires ConfigString(step, ExpressionKey) == Ok(Some(e))
    requires Execute(step, ctx, evaluate, now).Ok?
    ensures var after := Execute(step, ctx, evaluate, now).value.1;
            NextStep(step, after.conditionResult) == if evaluate(e, ctx.variables) == Evaluated(Some(true))
                                                     then step.onTrue else step.onFalse
    ensures evaluate(e, ctx.variables) == Evaluated(None) ==>
              NextStep(step, Execute(step, ctx, evaluate, now).value.1.conditionResult) == step.onFalse
  {
  }

  /** The executor changes the context's condition flag and nothing else. */
  lemma ConditionOnlySetsFlag(step: StepDefinition, ctx: Context, evaluate: Evaluator, now: int)
    requires Execute(step, ctx, evaluate, now).Ok?
    ensures var after := Execute(step, ctx, evaluate, now).value.1;
            after == ctx.(conditionResult := after.conditionResult)
    ensures Execute(step, ctx, evaluate, now).value.0.entries[ResultKey] ==
              Bool(Execute(step, ctx, evaluate, now).value.1.conditionResult)
  {
  }
}

=== FILE: definition_model.dfy ===
/** The parsed, in-memory view of a workflow definition. */
module DefinitionModels {
  import opened Base
  import opened StepDefinitions

  /** `variables` is `None` when the document declared `variables: null`. */
  datatype WorkflowDefinitionModel = WorkflowDefinitionModel(
    name: Option<string>,
    version: Option<string>,
    steps: seq<StepDefinition>,
    variables: Option<map<string, Value>>)

  /** The first `n` steps all carry an id, and none of those ids is `id`. */
  ghost predicate PassedOver(steps: seq<StepDefinition>, id: string, n: nat)
    requires n <= |steps|
  {
    forall j :: 0 <= j < n ==> steps[j].id.Some? && steps[j].id.value != id
  }

  function StepNotFound(id: string): Failure {
    IllegalArgument("Step not found: " + id)
  }

  /** `findStep(id)`: the first step, in list order, whose id equals `id`.
      Comparing a step whose id is null throws before the scan can pass it;
      running off the end throws "Step not found". */
  function FindStep(model: WorkflowDefinitionModel, id: string): (r: Result<StepDefinition>)
    ensures r.Ok? ==> r.value.id == Some(id)
    ensures r.Ok? ==>
              exists i :: 0 <= i < |model.steps| && model.steps[i] == r.value && PassedOver(model.steps, id, i)
    ensures r.Err? ==> r.failure == NullPointer || r.failure == StepNotFound(id)
    ensures r == Err(NullPointer) ==>
              exists i :: 0 <= i < |model.steps| && model.steps[i].id == None && PassedOver(model.steps, id, i)
    ensures r == Err(StepNotFound(id)) <==> PassedOver(model.steps, id, |model.steps|)
  {
    FindFrom(model.steps, id, 0)
  }

  function FindFrom(steps: seq<StepDefinition>, id: string, k: nat): (r: Result<StepDefinition>)
    requires k <= |steps|
    requires PassedOver(steps, id, k)
    ensures r.Ok? ==> r.value.id == Some(id)
    ensures r.Ok? ==> exists i :: k <= i < |steps| && steps[i] == r.value && PassedOver(steps, id, i)
    ensures r.Err? ==> r.failure == NullPointer || r.failure == StepNotFound(id)
    ensures r == Err(NullPointer) ==>
              exists i :: k <= i < |steps| && steps[i].id == None && PassedOver(steps, id, i)
    ensures r == Err(StepNotFound(id)) <==> PassedOver(steps, id, |steps|)
    decreases |steps| - k
  {
    if k == |steps| then Err(StepNotFound(id))
    else if steps[k].id.None? then Err(NullPointer)
    else if steps[k].id.value == id then Ok(steps[k])
    else FindFrom(steps, id, k + 1)
  }

  /** With duplicate ids the earliest step wins, provided every step before
      it has an id. */
  lemma FindStepEarliest(model: WorkflowDefinitionModel, i: nat)
    requires i < |model.steps| && model.steps[i].id.Some?
    requires forall j :: 0 <= j < i ==> model.steps[j].id.Some?
    ensures FindStep(model, model.steps[i].id.value).Ok?
    ensures exists k :: 0 <= k <= i && FindStep(model, model.steps[i].id.value) == Ok(model.steps[k])
  {
    var id := model.steps[i].id.value;
    var r := FindStep(model, id);
    assert !PassedOver(model.steps, id, |model.steps|);
    if r.Ok? {
      var k :| 0 <= k < |model.steps| && model.steps[k] == r.value && PassedOver(model.steps, id, k);
    }
  }

  /** Looking up the first step by its own id finds it. */
  lemma FindFirstStep(model: WorkflowDefinitionModel)
    requires |model.steps| > 0 && model.steps[0].id.Some?
    ensures FindStep(model, model.steps[0].id.value) == Ok(model.steps[0])
  {
  }

  /** `getFirstStep()`: the first step in document order, or null when there
      are no steps; no graph root is looked for. */
  function FirstStep(model: WorkflowDefinitionModel): (r: Option<StepDefinition>)
    ensures r.None? <==> |model.steps| == 0
    ensures r.Some? ==> r.value == model.steps[0]
  {
    if |model.steps| == 0 then None else Some(model.steps[0])
  }
}

=== FILE: delay_executor.dfy ===
/** `DelayStepExecutor`: reads a duration such as "5s", "10m" or "1h" from the
    step's config, waits that long and reports how long it waited. The wait
    itself is not modelled; a duration is a whole number of seconds. */
module DelayExecutor {
  import opened Base
  import opened Text
  import opened StepDefinitions

  const DurationKey := "duration"
  const DefaultSeconds := 1

  function InvalidDuration(s: string): Failure {
    IllegalArgument("Invalid duration format: " + s)
  }

  /** `parseDuration`: a missing or empty string is one second; otherwise
      only the last character is read as a unit (`s`, `m`, `h`), a string
      ending in anything else is a number of seconds, and a number that
      `Long.parseLong` rejects is an error naming the whole string. */
  function ParseDuration(s: Option<string>): (r: Result<int>)
    ensures s == None || s == Some("") ==> r == Ok(DefaultSeconds)
    ensures r.Err? ==> s.Some? && r.failure == InvalidDuration(s.value)
    ensures s.Some? && |s.value| > 0 && s.value[|s.value| - 1] in "smh" ==>
              (r.Err? <==> !IsLongLiteral(s.value[..|s.value| - 1]))
    ensures s.Some? && |s.value| > 0 && s.value[|s.value| - 1] !in "smh" ==> (r.Err? <==> !IsLongLiteral(s.value))
  {
    match s
    case None => Ok(DefaultSeconds)
    case Some(text) =>
      if |text| == 0 then Ok(DefaultSeconds)
      else
        var unit := text[|text| - 1];
        var number := text[..|text| - 1];
        if unit == 's' then Scaled(ParseLong(number), 1, text)
        else if unit == 'm' then Scaled(ParseLong(number), 60, text)
        else if unit == 'h' then Scaled(ParseLong(number), 3600, text)
        else Scaled(ParseLong(text), 1, text)
  }

  function Scaled(n: Option<int>, factor: int, text: string): (r: Result<int>)
    ensures n.Some? ==> r == Ok(n.value * factor)
    ensures n.None? ==> r == Err(InvalidDuration(text))
  {
    match n
    case Some(v) => Ok(v * factor)
    case None => Err(InvalidDuration(text))
  }

  /** "<n>s" is n seconds. */
  lemma SecondsSuffix(n: int)
    ensures ParseDuration(Some(IntToString(n) + "s")) == Ok(n)
  {
    var text := IntToString(n) + "s";
    assert text[..|text| - 1] == IntToString(n);
    ParseLongOfIntToString(n);
  }

  /** "<n>m" is n minutes. */
  lemma MinutesSuffix(n: int)
    ensures ParseDuration(Some(IntToString(n) + "m")) == Ok(n * 60)
  {
    var text := IntToString(n) + "m";
    assert text[..|text| - 1] == IntToString(n);
    ParseLongOfIntToString(n);
  }

  /** "<n>h" is n hours. */
  lemma HoursSuffix(n: int)
    ensures ParseDuration(Some(IntToString(n) + "h")) == Ok(n * 3600)
  {
    var text := IntToString(n) + "h";
    assert text[..|text| - 1] == IntToString(n);
    ParseLongOfIntToString(n);
  }

  /** A number with no unit is read as seconds. */
  lemma NoUnitIsSeconds(n: int)
    ensures ParseDuration(Some(IntToString(n))) == Ok(n)
  {
    var text := IntToString(n);
    ParseLongOfIntToString(n);
    assert IsDigit(text[|text| - 1]) by {
      if n < 0 {
        assert text[|text| - 1] == NatToString(-n)[|NatToString(-n)| - 1];
      }
    }
  }

  /** Only the last character is a unit: "10ms" is not ten milliseconds but
      the malformed minute count "10m". */
  lemma MillisecondsRejected(t: string)
    ensures ParseDuration(Some(t + "ms")) == Err(InvalidDuration(t + "ms"))
  {
    var text := t + "ms";
    var number := text[..|text| - 1];
    assert number[|number| - 1] == 'm';
    assert !IsLongLiteral(number) by {
      assert !IsDigit(number[|number| - 1]);
    }
  }

  // ---------------------------------------------------------------------
  // java.time.Duration

  /** Java's `/` and `%` on `long` truncate toward zero. */
  function Quot(a: int, b: int): int
    requires b > 0
  {
    if a >= 0 then a / b else -((-a) / b)
  }

  function Rem(a: int, b: int): int
    requires b > 0
  {
    a - b * Quot(a, b)
  }

  /** `Duration.toString()` for a whole number of seconds: the ISO-8601 form
      "PT<h>H<m>M<s>S", zero parts left out, "PT0S" for zero, every part
      carrying the sign of the duration. */
  function DurationText(seconds: int): string {
    var hours := Quot(seconds, 3600);
    var minutes := Quot(Rem(seconds, 3600), 60);
    var secs := Rem(seconds, 60);
    var head := "PT" + (if hours != 0 then IntToString(hours) + "H" else "")
                     + (if minutes != 0 then IntToString(minutes) + "M" else "");
    if secs == 0 && |head| > 2 then head else head + IntToString(secs) + "S"
  }

  /** Zero is "PT0S". */
  lemma DurationTextZero()
    ensures DurationText(0) == "PT0S"
  {
    assert IntToString(0) == "0";
  }

  /** Under a minute, only the seconds part is written: 5 s is "PT5S". */
  lemma DurationTextSeconds(n: int)
    requires -60 < n < 60 && n != 0
    ensures DurationText(n) == "PT" + IntToString(n) + "S"
  {
    assert Quot(n, 3600) == 0 && Rem(n, 3600) == n;
    assert Quot(n, 60) == 0 && Rem(n, 60) == n;
  }

  /** Whole minutes under an hour: 120 s is "PT2M". */
  lemma DurationTextMinutes(m: int)
    requires -60 < m < 60 && m != 0
    ensures DurationText(m * 60) == "PT" + IntToString(m) + "M"
  {
    assert Quot(m * 60, 3600) == 0 && Rem(m * 60, 3600) == m * 60;
    assert Quot(m * 60, 60) == m && Rem(m * 60, 60) == 0;
  }

  /** Whole hours: 3600 s is "PT1H", and days are counted in hours. */
  lemma DurationTextHours(h: int)
    requires h != 0
    ensures DurationText(h * 3600) == "PT" + IntToString(h) + "H"
  {
    var x := h * 3600;
    assert Quot(x, 3600) == h by {
      if h > 0 {
        assert x / 3600 == h;
      } else {
        assert -x == (-h) * 3600;
        assert (-x) / 3600 == -h;
      }
    }
    assert Rem(x, 3600) == 0;
    assert Quot(x, 60) == h * 60 by {
      assert x == (h * 60) * 60;
      if h > 0 {
        assert x / 60 == h * 60;
      } else {
        assert -x == (-(h * 60)) * 60;
        assert (-x) / 60 == -(h * 60);
      }
    }
    assert Rem(x, 60) == 0;
    assert Quot(0, 60) == 0;
  }

  // ---------------------------------------------------------------------
  // The executor

  const DelayedKey := "delayed"
  const DelayedMsKey := "delayedMs"
  const TimestampKey := "timestamp"

  /** `execute`: a config `duration` that is not a string, or that does not
      parse, throws; otherwise the result reports the duration as text and in
      milliseconds, with the clock reading `now`. */
  function Execute(step: StepDefinition, now: int): (r: Result<Value>)
    ensures r.Ok? <==> ConfigString(step, DurationKey).Ok? && ParseDuration(ConfigString(step, DurationKey).value).Ok?
    ensures r.Ok? ==> var seconds := ParseDuration(ConfigString(step, DurationKey).value).value;
              r.value == Dict(map[DelayedKey := Str(DurationText(seconds)),
                                  DelayedMsKey := Int(seconds * 1000),
                                  TimestampKey := Int(now)])
    ensures r.Err? ==> r.failure == ClassCast || r.failure.IllegalArgument?
  {
    var text :- ConfigString(step, DurationKey);
    var seconds :- ParseDuration(text);
    Ok(Dict(map[DelayedKey := Str(DurationText(seconds)),
                DelayedMsKey := Int(seconds * 1000),
                TimestampKey := Int(now)]))
  }

  /** The reported `delayedMs` is the configured duration in milliseconds:
      "<n>s" waits n * 1000 ms. */
  lemma DelayedMsOfSeconds(step: StepDefinition, n: int, now: int)
    requires Get(step.config, DurationKey) == Str(IntToString(n) + "s")
    ensures Execute(step, now).Ok?
    ensures Execute(step, now).value.entries[DelayedMsKey] == Int(n * 1000)
  {
    SecondsSuffix(n);
  }
}

=== FILE: execution_context.dfy ===
/** `ExecutionContext`: the variable bag one run carries from step to step. As
    an immutable value every setter returns the updated context, so a copy
    can never share a map with its original. */
module ExecutionContexts {
  import opened Base

  /** Instance ids are UUIDs, kept in their string form. */
  type Uuid = string

  const ResultVariable := "result"

  datatype Context = Context(
    instanceId: Uuid,
    variables: map<string, Value>,
    currentStepId: Option<string>,
    lastResult: Value,
    conditionResult: bool)

  /** A new context holds its own copy of the initial variables, no current
      step, a null last result and a false condition flag. */
  function NewContext(instanceId: Uuid, initial: map<string, Value>): (c: Context)
    ensures c.instanceId == instanceId && c.variables == initial
    ensures c.currentStepId == None && c.lastResult == Null && !c.conditionResult
  {
    Context(instanceId, initial, None, Null, false)
  }

  /** `getVariable(name)`: null for an unknown name. */
  function GetVariable(c: Context, name: string): Value {
    Get(c.variables, name)
  }

  /** `setVariable(name, value)`: afterwards `name` reads back as `value`,
      every other name reads as before, and nothing else changes. */
  function SetVariable(c: Context, name: string, value: Value): (r: Context)
    ensures GetVariable(r, name) == value
    ensures forall k :: k != name ==> GetVariable(r, k) == GetVariable(c, k)
    ensures r.variables.Keys == c.variables.Keys + {name}
    ensures r == c.(variables := r.variables)
  {
    c.(variables := c.variables[name := value])
  }

  /** `setCurrentStepId(id)`: only the current step id changes. */
  function SetCurrentStepId(c: Context, id: Option<string>): (r: Context)
    ensures r.currentStepId == id
    ensures r == c.(currentStepId := id)
  {
    c.(currentStepId := id)
  }

  /** `setLastResult(result)`: the result is kept and mirrored into the
      `result` variable, so later steps can read it; nothing else changes. */
  function SetLastResult(c: Context, result: Value): (r: Context)
    ensures r.lastResult == result && GetVariable(r, ResultVariable) == result
    ensures forall k :: k != ResultVariable ==> GetVariable(r, k) == GetVariable(c, k)
    ensures r.variables.Keys == c.variables.Keys + {ResultVariable}
    ensures r.instanceId == c.instanceId && r.currentStepId == c.currentStepId
    ensures r.conditionResult == c.conditionResult
  {
    SetVariable(c, ResultVariable, result).(lastResult := result)
  }

  /** `setConditionResult(flag)`: the only way the flag changes. */
  function SetConditionResult(c: Context, flag: bool): (r: Context)
    ensures r.conditionResult == flag
    ensures r == c.(conditionResult := flag)
  {
    c.(conditionResult := flag)
  }

  /** `copy()`: a context equal to the original field by field. */
  function Copy(c: Context): (r: Context)
    ensures r.instanceId == c.instanceId && r.variables == c.variables
    ensures r.currentStepId == c.currentStepId && r.lastResult == c.lastResult
    ensures r.conditionResult == c.conditionResult
  {
    Context(c.instanceId, c.variables, c.currentStepId, c.lastResult, c.conditionResult)
  }
}

=== FILE: log_executor.dfy ===
/** `LogStepExecutor`: writes a message to the log, after replacing each
    `${name}` placeholder with the current value of that context variable,
    and reports the message it wrote. Writing to the log is not modelled. */
module LogExecutor {
  import opened Base
  import opened Text
  import opened StepDefinitions
  import opened ExecutionContexts

  const MessageKey := "message"
  const LevelKey := "level"
  const DefaultMessage := "Log step executed"
  const DefaultLevel := "info"
  const TimestampKey := "timestamp"
  const InstanceIdKey := "workflowInstanceId"

  function Placeholder(name: string): string {
    "${" + name + "}"
  }

  /** One round of the substitution loop: when the message contains the
      variable's placeholder, every occurrence is replaced by the value's
      string form. */
  function ReplaceOne(message: string, vars: map<string, Value>, name: string, render: Value -> string): string {
    if name in vars && Contains(message, Placeholder(name)) then
      ReplaceAll(message, Placeholder(name), Show(vars[name], render))
    else message
  }

  /** `replaceVariables`: one round per variable, in `order`, the order in
      which the hash map hands out its entries. */
  function ReplaceVariables(message: string, vars: map<string, Value>, order: seq<string>,
                            render: Value -> string): string
    decreases |order|
  {
    if |order| == 0 then message
    else ReplaceVariables(ReplaceOne(message, vars, order[0], render), vars, order[1..], render)
  }

  /** A message without "${" comes back unchanged, whatever the variables. */
  lemma {:induction false} NoPlaceholderUnchanged(message: string, vars: map<string, Value>,
                                                  order: seq<string>, render: Value -> string)
    requires !Contains(message, "${")
    ensures ReplaceVariables(message, vars, order, render) == message
    decreases |order|
  {
    if |order| > 0 {
      NotContainsByPrefix(message, "${", Placeholder(order[0]));
      NoPlaceholderUnchanged(message, vars, order[1..], render);
    }
  }

  // ---------------------------------------------------------------------
  // Messages as templates

  /** A message read as literal text interleaved with placeholders. */
  datatype Piece = Lit(text: string) | Hole(name: string)

  function Render(t: seq<Piece>): string
    decreases |t|
  {
    if |t| == 0 then "" else RenderPiece(t[0]) + Render(t[1..])
  }

  /** A name the placeholder syntax delimits unambiguously. */
  predicate IsName(n: string) {
    '$' !in n && '}' !in n
  }

  /** Literal text that cannot start a placeholder. */
  predicate IsPlain(s: string) {
    '$' !in s
  }

  predicate WellFormed(t: seq<Piece>) {
    forall i :: 0 <= i < |t| ==> (t[i].Lit? ==> IsPlain(t[i].text)) && (t[i].Hole? ==> IsName(t[i].name))
  }

  /** The reference meaning of substitution: each placeholder whose name is
      a variable becomes that variable's string form, every other
      placeholder stays as written. */
  function Expand(t: seq<Piece>, vars: map<string, Value>, render: Value -> string): string
    decreases |t|
  {
    if |t| == 0 then ""
    else
      var head := match t[0]
        case Lit(s) => s
        case Hole(n) => if n in vars then Show(vars[n], render) else Placeholder(n);
      head + Expand(t[1..], vars, render)
  }

  /** Variables whose names are placeholder names and whose values print
      without a `$`. */
  predicate SafeVariables(vars: map<string, Value>, render: Value -> string) {
    forall k :: k in vars ==> IsName(k) && IsPlain(Show(vars[k], render))
  }

  /** `order` lists the variables' names and nothing else. A name may
      repeat: the map's own iteration never repeats a key, and the
      meaning of the loop below does not depend on it. */
  predicate Enumerates(order: seq<string>, names: set<string>) {
    (forall i :: 0 <= i < |order| ==> order[i] in names) && (forall k :: k in names ==> k in order)
  }

  function SubstOne(t: seq<Piece>, name: string, text: string): seq<Piece> {
    seq(|t|, i requires 0 <= i < |t| => if t[i] == Hole(name) then Lit(text) else t[i])
  }

  /** A placeholder is never a prefix of a different placeholder followed
      by anything: the closing brace ends a name. */
  lemma PlaceholderNotPrefix(n: string, name: string, rest: string)
    requires IsName(n) && IsName(name) && n != name
    ensures !IsPrefix(Placeholder(name), Placeholder(n) + rest)
  {
    var p := Placeholder(name);
    var s := Placeholder(n) + rest;
    if |name| == |n| {
      assert s[..|p|] == Placeholder(n);
      assert Placeholder(n)[2..2 + |n|] == n && p[2..2 + |n|] == name;
    } else if |name| < |n| {
      assert p[2 + |name|] == '}' && s[2 + |name|] == n[|name|];
    } else {
      assert s[2 + |n|] == '}' && p[2 + |n|] == name[|n|];
    }
  }

  /** Replacing one placeholder leaves another placeholder in front intact. */
  lemma ReplaceAllOtherHole(n: string, name: string, rest: string, text: string)
    requires IsName(n) && IsName(name) && n != name
    ensures ReplaceAll(Placeholder(n) + rest, Placeholder(name), text)
            == Placeholder(n) + ReplaceAll(rest, Placeholder(name), text)
  {
    var s := Placeholder(n) + rest;
    PlaceholderNotPrefix(n, name, rest);
    var tail := "{" + n + "}";
    assert s[1..] == tail + rest;
    ReplaceAllSkip(tail, rest, Placeholder(name), text);
    assert [s[0]] + tail == Placeholder(n);
  }

  /** Replacing a placeholder in front of the text. */
  lemma ReplaceAllOwnHole(name: string, rest: string, text: string)
    ensures ReplaceAll(Placeholder(name) + rest, Placeholder(name), text)
            == text + ReplaceAll(rest, Placeholder(name), text)
  {
    var p := Placeholder(name);
    assert IsPrefix(p, p + rest);
    assert (p + rest)[|p|..] == rest;
  }

  function RenderPiece(x: Piece): string {
    match x
    case Lit(s) => s
    case Hole(n) => Placeholder(n)
  }

  /** Replacing one placeholder in the text of a well-formed template is
      replacing the matching holes of the template. */
  lemma {:induction false} ReplaceAllRender(t: seq<Piece>, name: string, text: string)
    requires WellFormed(t) && IsName(name)
    ensures ReplaceAll(Render(t), Placeholder(name), text) == Render(SubstOne(t, name, text))
    decreases |t|
  {
    if |t| > 0 {
      var p := Placeholder(name);
      var u := SubstOne(t, name, text);
      var rest := Render(t[1..]);
      assert Render(t) == RenderPiece(t[0]) + rest;
      assert u[1..] == SubstOne(t[1..], name, text);
      assert Render(u) == RenderPiece(u[0]) + Render(u[1..]);
      ReplaceAllRender(t[1..], name, text);
      match t[0]
      case Lit(s) =>
        ReplaceAllSkip(s, rest, p, text);
      case Hole(n) =>
        if n == name {
          ReplaceAllOwnHole(name, rest, text);
        } else {
          ReplaceAllOtherHole(n, name, rest, text);
        }
    }
  }

  /** The template after the variables in `done` have been substituted. */
  function Substituted(t: seq<Piece>, vars: map<string, Value>, done: set<string>,
                       render: Value -> string): seq<Piece> {
    seq(|t|, i requires 0 <= i < |t| =>
      if t[i].Hole? && t[i].name in done && t[i].name in vars then Lit(Show(vars[t[i].name], render)) else t[i])
  }

  lemma SubstitutedWellFormed(t: seq<Piece>, vars: map<string, Value>, done: set<string>,
                              render: Value -> string)
    requires WellFormed(t) && SafeVariables(vars, render)
    ensures WellFormed(Substituted(t, vars, done, render))
  {
  }

  /** One round of the loop on a partly substituted template substitutes
      one more variable. */
  lemma ReplaceOneStep(t: seq<Piece>, vars: map<string, Value>, done: set<string>, name: string,
                       render: Value -> string)
    requires WellFormed(t) && SafeVariables(vars, render) && name in vars
    ensures ReplaceOne(Render(Substituted(t, vars, done, render)), vars, name, render)
            == Render(Substituted(t, vars, done + {name}, render))
  {
    var u := Substituted(t, vars, done, render);
    var text := Show(vars[name], render);
    SubstitutedWellFormed(t, vars, done, render);
    ReplaceAllRender(u, name, text);
    assert SubstOne(u, name, text) == Substituted(t, vars, done + {name}, render);
    if !Contains(Render(u), Placeholder(name)) {
      ReplaceAllAbsent(Render(u), Placeholder(name), text);
    }
  }

  /** The names a list of names mentions. */
  function Names(order: seq<string>): (r: set<string>)
    ensures forall k :: k in r <==> k in order
    decreases |order|
  {
    if |order| == 0 then {} else {order[0]} + Names(order[1..])
  }

  lemma {:induction false} ReplaceFrom(t: seq<Piece>, vars: map<string, Value>, done: set<string>,
                                       order: seq<string>, render: Value -> string)
    requires WellFormed(t) && SafeVariables(vars, render)
    requires forall i :: 0 <= i < |order| ==> order[i] in vars
    ensures ReplaceVariables(Render(Substituted(t, vars, done, render)), vars, order, render)
            == Render(Substituted(t, vars, done + Names(order), render))
    decreases |order|
  {
    if |order| > 0 {
      ReplaceOneStep(t, vars, done, order[0], render);
      ReplaceFrom(t, vars, done + {order[0]}, order[1..], render);
      assert done + {order[0]} + Names(order[1..]) == done + Names(order);
    } else {
      assert done + Names(order) == done;
    }
  }

  lemma {:induction false} RenderSubstitutedAll(t: seq<Piece>, vars: map<string, Value>, render: Value -> string)
    ensures Render(Substituted(t, vars, vars.Keys, render)) == Expand(t, vars, render)
    decreases |t|
  {
    if |t| > 0 {
      assert Substituted(t, vars, vars.Keys, render)[1..] == Substituted(t[1..], vars, vars.Keys, render);
      RenderSubstitutedAll(t[1..], vars, render);
    }
  }

  /** With a well-formed message and safe variables, the substitution loop
      computes the reference meaning, whatever order the map uses: every
      placeholder of a variable is replaced, every other one stays. */
  lemma ReplaceVariablesMeaning(t: seq<Piece>, vars: map<string, Value>, order: seq<string>,
                                render: Value -> string)
    requires WellFormed(t) && SafeVariables(vars, render) && Enumerates(order, vars.Keys)
    ensures ReplaceVariables(Render(t), vars, order, render) == Expand(t, vars, render)
  {
    assert Substituted(t, vars, {}, render) == t;
    ReplaceFrom(t, vars, {}, order, render);
    assert {} + Names(order) == vars.Keys;
    RenderSubstitutedAll(t, vars, render);
  }

  const Nested := "${${a}}"

  lemma NestedReplaceA()
    ensures Contains(Nested, Placeholder("a"))
    ensures ReplaceAll(Nested, Placeholder("a"), "b") == "${b}"
  {
    var m := Nested;
    assert Placeholder("a") == "${a}";
    assert m[2..] == Placeholder("a") + "}";
    ReplaceAllOwnHole("a", "}", "b");
    assert ReplaceAll("}", "${a}", "b") == "}" by {
      assert "}"[1..] == "";
    }
    assert m[1..][1..] == m[2..];
    assert !IsPrefix("${a}", m[1..]) by { assert m[1..][0] == '{'; }
    assert !IsPrefix("${a}", m) by { assert m[2] == '$'; }
    assert IsPrefix("${a}", m[1..][1..]);
  }

  lemma NestedNoB()
    ensures !Contains(Nested, Placeholder("b"))
  {
    var m := Nested;
    assert Placeholder("b") == "${b}";
    assert m[2..][4..] == "}";
    NotContainsByHead("}", "${b}");
    assert !IsPrefix("${b}", m[2..][3..]) by { assert m[2..][3..][0] == '}'; }
    assert !IsPrefix("${b}", m[2..][2..]) by { assert m[2..][2..][0] == 'a'; }
    assert !IsPrefix("${b}", m[2..][1..]) by { assert m[2..][1..][0] == '{'; }
    assert !IsPrefix("${b}", m[2..]) by { assert m[2..][2] == 'a'; }
    assert !IsPrefix("${b}", m[1..]) by { assert m[1..][0] == '{'; }
    assert !IsPrefix("${b}", m) by { assert m[2] == '$'; }
    assert m[1..][1..] == m[2..];
  }

  lemma ReplaceB()
    ensures Contains("${b}", Placeholder("b"))
    ensures ReplaceAll("${b}", Placeholder("b"), "c") == "c"
  {
    assert Placeholder("b") == "${b}";
    assert IsPrefix("${b}", "${b}");
    ReplaceAllOwnHole("b", "", "c");
    assert Placeholder("b") + "" == "${b}";
  }

  /** The variables of the order-dependence example: a = "b", b = "c". */
  function NestedVars(): map<string, Value> {
    map["a" := Str("b"), "b" := Str("c")]
  }

  lemma NestedRoundA(render: Value -> string)
    ensures ReplaceOne(Nested, NestedVars(), "a", render) == "${b}"
  {
    NestedReplaceA();
    assert Show(NestedVars()["a"], render) == "b";
  }

  lemma NestedRoundB(render: Value -> string)
    ensures ReplaceOne(Nested, NestedVars(), "b", render) == Nested
    ensures ReplaceOne("${b}", NestedVars(), "b", render) == "c"
  {
    NestedNoB();
    ReplaceB();
    assert Show(NestedVars()["b"], render) == "c";
  }

  /** Without the precondition the result depends on the map's order: in
      "${${a}}" with a = "b" and b = "c", substituting a first exposes a new
      placeholder "${b}" that the round for b then replaces, while
      substituting b first leaves "${b}" behind. */
  lemma NestedPlaceholderOrderMatters(render: Value -> string)
    ensures ReplaceVariables(Nested, NestedVars(), ["a", "b"], render) == "c"
    ensures ReplaceVariables(Nested, NestedVars(), ["b", "a"], render) == "${b}"
  {
    NestedRoundA(render);
    NestedRoundB(render);
    assert ["a", "b"][1..] == ["b"] && ["b"][1..] == [];
    assert ["b", "a"][1..] == ["a"] && ["a"][1..] == [];
  }

  // ---------------------------------------------------------------------
  // The executor

  /** `execute`: a message or level that is not a string throws; an absent
      message is "Log step executed", an absent level "info". The result
      carries the substituted message, the level exactly as configured, the
      clock reading `now` and the instance id. `order` is the order the
      context's variables are visited in. */
  function Execute(step: StepDefinition, ctx: Context, order: seq<string>, render: Value -> string,
                   now: int): (r: Result<Value>)
    ensures r.Ok? <==> ConfigString(step, MessageKey).Ok? && ConfigString(step, LevelKey).Ok?
    ensures r.Err? ==> r.failure == ClassCast
    ensures r.Ok? ==> r.value.Dict? && r.value.entries.Keys == {MessageKey, LevelKey, TimestampKey, InstanceIdKey}
    ensures r.Ok? ==> r.value.entries[LevelKey] == Str(ConfigString(step, LevelKey).value.GetOr(DefaultLevel))
    ensures r.Ok? ==> r.value.entries[InstanceIdKey] == Str(ctx.instanceId)
    ensures r.Ok? ==> r.value.entries[TimestampKey] == Int(now)
    ensures r.Ok? ==> (r.value.entries[MessageKey] ==
              Str(ReplaceVariables(ConfigString(step, MessageKey).value.GetOr(DefaultMessage), ctx.variables, order, render)))
  {
    var message :- ConfigString(step, MessageKey);
    var level :- ConfigString(step, LevelKey);
    var processed := ReplaceVariables(message.GetOr(DefaultMessage), ctx.variables, order, render);
    Ok(Dict(map[MessageKey := Str(processed),
                LevelKey := Str(level.GetOr(DefaultLevel)),
                TimestampKey := Int(now),
                InstanceIdKey := Str(ctx.instanceId)]))
  }

  /** A step with no message and no level logs "Log step executed" at "info". */
  lemma LogDefaults(step: StepDefinition, ctx: Context, order: seq<string>, render: Value -> string, now: int)
    requires MessageKey !in step.config && LevelKey !in step.config
    ensures Execute(step, ctx, order, render, now).Ok?
    ensures Execute(step, ctx, order, render, now).value.entries[MessageKey] == Str(DefaultMessage)
    ensures Execute(step, ctx, order, render, now).value.entries[LevelKey] == Str(DefaultLevel)
  {
    assert !Contains(DefaultMessage, "${") by {
      NotContainsByHead(DefaultMessage, "${");
    }
    NoPlaceholderUnchanged(DefaultMessage, ctx.variables, order, render);
  }

  /** A greeting that names one variable the context has and one it does
      not: "<greeting>${<known>} ${<unknown>}". */
  function Greeting(greeting: string, known: string, unknown: string): seq<Piece> {
    [Lit(greeting), Hole(known), Lit(" "), Hole(unknown)]
  }

  lemma GreetingRender(greeting: string, known: string, unknown: string)
    ensures Render(Greeting(greeting, known, unknown)) == greeting + Placeholder(known) + " " + Placeholder(unknown)
  {
    var t := Greeting(greeting, known, unknown);
    assert t[1..][1..][1..][1..] == [];
    assert Render(t[1..][1..][1..]) == Placeholder(unknown);
    assert Render(t[1..][1..]) == " " + Placeholder(unknown);
  }

  lemma GreetingExpand(greeting: string, known: string, unknown: string, value: string, render: Value -> string)
    requires known != unknown
    ensures Expand(Greeting(greeting, known, unknown), map[known := Str(value)], render)
            == greeting + value + " " + Placeholder(unknown)
  {
    var t := Greeting(greeting, known, unknown);
    var vars := map[known := Str(value)];
    assert t[1..][1..][1..][1..] == [];
    assert Expand(t[1..][1..][1..], vars, render) == Placeholder(unknown);
    assert Expand(t[1..][1..], vars, render) == " " + Placeholder(unknown);
    assert Show(vars[known], render) == value;
  }

  /** A placeholder naming no variable is left as written, while the known
      one is replaced: with name = "World", "Hello ${name} ${missing}" logs
      "Hello World ${missing}". */
  lemma UnknownPlaceholderKept(greeting: string, known: string, unknown: string, value: string,
                               render: Value -> string)
    requires IsPlain(greeting) && IsName(known) && IsName(unknown) && known != unknown && IsPlain(value)
    ensures ReplaceVariables(greeting + Placeholder(known) + " " + Placeholder(unknown),
                             map[known := Str(value)], [known], render)
            == greeting + value + " " + Placeholder(unknown)
  {
    var t := Greeting(greeting, known, unknown);
    var vars := map[known := Str(value)];
    GreetingRender(greeting, known, unknown);
    GreetingExpand(greeting, known, unknown, value, render);
    assert IsPlain(" ");
    assert WellFormed(t);
    assert SafeVariables(vars, render) by {
      assert Show(vars[known], render) == value;
    }
    ReplaceVariablesMeaning(t, vars, [known], render);
  }
}

=== FILE: registry.dfy ===
/** `StepExecutor` and `StepExecutorRegistry`: the executors the engine knows,
    indexed by the step type each one declares. */
module Registry {
  import opened Base
  import StepDefinitions

  /** The three executors whose behaviour is modelled here, and any other
      executor (the HTTP one among them) by its declared type only. */
  datatype Executor = LogStep | DelayStep | ConditionStep | External(declaredType: string)

  const LogType := "log"
  const DelayType := "delay"
  const HttpType := "http"

  /** `getStepType()`. */
  function StepType(e: Executor): string {
    match e
    case LogStep => LogType
    case DelayStep => DelayType
    case ConditionStep => StepDefinitions.ConditionType
    case External(t) => t
  }

  /** `canHandle(stepType)`: the executor declares exactly that type. */
  predicate CanHandle(e: Executor, stepType: string) {
    StepType(e) == stepType
  }

  /** The registry's map; each executor sits under the type it declares. */
  type Registry = m: map<string, Executor> | forall t :: t in m ==> StepType(m[t]) == t
    witness map[]

  /** No two executors of the list declare the same type. */
  predicate DistinctTypes(executors: seq<Executor>) {
    forall i, j :: 0 <= i < j < |executors| ==> StepType(executors[i]) != StepType(executors[j])
  }

  function DeclaredTypes(executors: seq<Executor>): set<string> {
    set i | 0 <= i < |executors| :: StepType(executors[i])
  }

  /** The constructor: `Collectors.toMap` with no merge function, which
      throws `IllegalStateException` at the first type declared twice. */
  function NewRegistry(executors: seq<Executor>): (r: Result<Registry>)
    ensures r.Ok? <==> DistinctTypes(executors)
    ensures r.Ok? ==> r.value.Keys == DeclaredTypes(executors)
    ensures r.Ok? ==> forall i :: 0 <= i < |executors| ==> r.value[StepType(executors[i])] == executors[i]
    ensures r.Err? ==> r.failure.IllegalState?
    decreases |executors|
  {
    if |executors| == 0 then Ok(map[])
    else
      var prefix := executors[..|executors| - 1];
      var last := executors[|executors| - 1];
      assert executors == prefix + [last];
      AppendExecutor(prefix, last);
      var m :- NewRegistry(prefix);
      if StepType(last) in m then
        Err(IllegalState("Duplicate key " + StepType(last)))
      else
        var r: Registry := m[StepType(last) := last];
        Ok(r)
  }

  /** Adding one executor at the end: its type joins the declared ones, and
      the list stays duplicate-free exactly when that type is new. */
  lemma AppendExecutor(prefix: seq<Executor>, last: Executor)
    ensures DeclaredTypes(prefix + [last]) == DeclaredTypes(prefix) + {StepType(last)}
    ensures DistinctTypes(prefix + [last]) <==> DistinctTypes(prefix) && StepType(last) !in DeclaredTypes(prefix)
  {
    var all := prefix + [last];
    assert forall i :: 0 <= i < |prefix| ==> all[i] == prefix[i];
    assert all[|prefix|] == last;
    if StepType(last) in DeclaredTypes(prefix) {
      var i :| 0 <= i < |prefix| && StepType(prefix[i]) == StepType(last);
      assert StepType(all[i]) == StepType(all[|prefix|]);
    }
  }

  /** `getExecutor(stepType)`: the executor declared for the type, or an
      `IllegalArgumentException` naming the type (a null type prints as "null"). */
  function GetExecutor(reg: Registry, stepType: Option<string>): (r: Result<Executor>)
    ensures r.Ok? ==> stepType.Some? && CanHandle(r.value, stepType.value)
    ensures r.Ok? <==> stepType.Some? && stepType.value in SupportedStepTypes(reg)
    ensures r.Err? ==> r.failure == IllegalArgument("No executor found for step type: " + Nullable(stepType))
  {
    if stepType.Some? && stepType.value in reg then Ok(reg[stepType.value])
    else Err(IllegalArgument("No executor found for step type: " + Nullable(stepType)))
  }

  /** `hasExecutor(stepType)`. */
  function HasExecutor(reg: Registry, stepType: Option<string>): (b: bool)
    ensures b <==> GetExecutor(reg, stepType).Ok?
  {
    stepType.Some? && stepType.value in reg
  }

  /** `getSupportedStepTypes()`, as a set: the list's order is the hash map's. */
  function SupportedStepTypes(reg: Registry): set<string> {
    reg.Keys
  }

  /** A registry built from a list finds each listed executor by its type,
      and knows no other type. */
  lemma LookupAfterConstruction(executors: seq<Executor>, stepType: string)
    requires NewRegistry(executors).Ok?
    ensures var reg := NewRegistry(executors).value;
            GetExecutor(reg, Some(stepType)).Ok? <==>
              exists i :: 0 <= i < |executors| && StepType(executors[i]) == stepType
    ensures var reg := NewRegistry(executors).value;
            forall i :: 0 <= i < |executors| && StepType(executors[i]) == stepType ==>
              GetExecutor(reg, Some(stepType)) == Ok(executors[i])
  {
    var reg := NewRegistry(executors).value;
    if stepType in reg {
      assert stepType in DeclaredTypes(executors);
      var i :| 0 <= i < |executors| && StepType(executors[i]) == stepType;
    }
    forall i | 0 <= i < |executors| && StepType(executors[i]) == stepType
      ensures GetExecutor(reg, Some(stepType)) == Ok(executors[i])
    {
      assert reg[StepType(executors[i])] == executors[i];
    }
  }

  /** The executors the engine ships with. */
  const StandardExecutors: seq<Executor> := [LogStep, DelayStep, ConditionStep, External(HttpType)]

  lemma StandardRegistryBuilds()
    ensures NewRegistry(StandardExecutors).Ok?
    ensures SupportedStepTypes(NewRegistry(StandardExecutors).value) == {LogType, DelayType, StepDefinitions.ConditionType, HttpType}
  {
    var e := StandardExecutors;
    assert StepType(e[0]) == LogType && StepType(e[1]) == DelayType;
    assert StepType(e[2]) == StepDefinitions.ConditionType && StepType(e[3]) == HttpType;
    assert DistinctTypes(e) by {
      assert |LogType| == 3 && |DelayType| == 5 && |StepDefinitions.ConditionType| == 9 && |HttpType| == 4;
    }
    assert DeclaredTypes(e) == {LogType, DelayType, StepDefinitions.ConditionType, HttpType};
  }
}

=== FILE: step_definition.dfy ===
/** One step of a parsed workflow: its identity, the type tag that selects an
    executor, the free-form configuration and the branching targets. */
module StepDefinitions {
  import opened Base

  datatype StepDefinition = StepDefinition(
    id: Option<string>,
    stepType: Option<string>,
    config: map<string, Value>,
    next: Option<string>,
    onTrue: Option<string>,
    onFalse: Option<string>)

  const ConditionType := "condition"

  /** The branching rule: a `condition` step follows `onTrue` or `onFalse`
      according to the flag, every other type follows `next`. A switch on a
      null type throws, so the type must be present. */
  function NextStep(step: StepDefinition, conditionResult: bool): (r: Option<string>)
    requires step.stepType.Some?
    ensures step.stepType == Some(ConditionType) && conditionResult ==> r == step.onTrue
    ensures step.stepType == Some(ConditionType) && !conditionResult ==> r == step.onFalse
    ensures step.stepType != Some(ConditionType) ==> r == step.next
  {
    if step.stepType.value == ConditionType then
      if conditionResult then step.onTrue else step.onFalse
    else step.next
  }

  /** The classes a configuration value is cast to. */
  datatype JavaClass = StringClass | IntegerClass | BooleanClass | ObjectClass

  const IntMin: int := -0x8000_0000
  const IntMax: int := 0x7fff_ffff

  /** `cls.isInstance(v)` for a non-null value. A YAML integer is loaded as
      the narrowest of `Integer`, `Long` and `BigInteger` that holds it, so
      only values in 32-bit range are `Integer`s. */
  predicate IsInstance(v: Value, cls: JavaClass) {
    match cls
    case StringClass => v.Str?
    case IntegerClass => v.Int? && IntMin <= v.i <= IntMax
    case BooleanClass => v.Bool?
    case ObjectClass => v != Null
  }

  /** `getConfigValue(key, cls)`: `null` for an absent (or null) entry, the
      stored value itself when it is an instance of `cls`, and a
      `ClassCastException` otherwise; nothing is converted. */
  function ConfigValue(step: StepDefinition, key: string, cls: JavaClass): (r: Result<Option<Value>>)
    ensures r == Ok(None) <==> Get(step.config, key) == Null
    ensures r.Ok? && r.value.Some? ==> key in step.config && r.value.value == step.config[key]
    ensures r.Err? <==> Get(step.config, key) != Null && !IsInstance(step.config[key], cls)
    ensures r.Err? ==> r.failure == ClassCast
  {
    var v := Get(step.config, key);
    if v == Null then Ok(None)
    else if IsInstance(v, cls) then Ok(Some(v))
    else Err(ClassCast)
  }

  /** `getConfigString(key)`: `getConfigValue(key, String.class)`. */
  function ConfigString(step: StepDefinition, key: string): (r: Result<Option<string>>)
    ensures r.Ok? <==> ConfigValue(step, key, StringClass).Ok?
    ensures r == Ok(None) <==> ConfigValue(step, key, StringClass) == Ok(None)
    ensures r.Ok? && r.value.Some? ==> ConfigValue(step, key, StringClass) == Ok(Some(Str(r.value.value)))
  {
    var v :- ConfigValue(step, key, StringClass);
    match v
    case None => Ok(None)
    case Some(s) => Ok(Some(s.s))
  }

  /** `getConfigInt(key)`: `getConfigValue(key, Integer.class)`. */
  function ConfigInt(step: StepDefinition, key: string): (r: Result<Option<int>>)
    ensures r.Ok? <==> ConfigValue(step, key, IntegerClass).Ok?
    ensures r == Ok(None) <==> ConfigValue(step, key, IntegerClass) == Ok(None)
    ensures r.Ok? && r.value.Some? ==>
              ConfigValue(step, key, IntegerClass) == Ok(Some(Int(r.value.value))) &&
              IntMin <= r.value.value <= IntMax
  {
    var v :- ConfigValue(step, key, IntegerClass);
    match v
    case None => Ok(None)
    case Some(n) => Ok(Some(n.i))
  }

  /** `getConfigBoolean(key)`: `getConfigValue(key, Boolean.class)`. */
  function ConfigBoolean(step: StepDefinition, key: string): (r: Result<Option<bool>>)
    ensures r.Ok? <==> ConfigValue(step, key, BooleanClass).Ok?
    ensures r == Ok(None) <==> ConfigValue(step, key, BooleanClass) == Ok(None)
    ensures r.Ok? && r.value.Some? ==> ConfigValue(step, key, BooleanClass) == Ok(Some(Bool(r.value.value)))
  {
    var v :- ConfigValue(step, key, BooleanClass);
    match v
    case None => Ok(None)
    case Some(b) => Ok(Some(b.b))
  }

  /** A scalar that is neither string, number nor boolean (a floating-point
      number, say) is printed by its text, but no typed getter accepts it;
      only `Object` does. */
  lemma OtherScalarOnlyObject(step: StepDefinition, key: string)
    requires key in step.config && step.config[key].Other?
    ensures ConfigString(step, key) == Err(ClassCast)
    ensures ConfigInt(step, key) == Err(ClassCast)
    ensures ConfigBoolean(step, key) == Err(ClassCast)
    ensures ConfigValue(step, key, ObjectClass) == Ok(Some(step.config[key]))
  {
  }
}

=== FILE: step_dispatch.dfy ===
/** `WorkflowExecutor.executeStep`: find the executor for the step's type and
    run it. Executors outside this model (the HTTP one among them) are
    represented by what they hand back. */
module StepDispatch {
  import opened Base
  import opened StepDefinitions
  import opened ExecutionContexts
  import opened Registry
  import LogExecutor
  import DelayExecutor
  import ConditionExecutor

  /** What an executor outside this model does when called: it throws while
      building its `Mono`, or its `Mono` emits a value, signals an error, or
      completes without a value. */
  datatype ExternalOutcome =
    | Emitted(value: Value)
    | Threw(failure: Failure)
    | Signalled(failure: Failure)
    | CompletedEmpty

  /** Everything the executors consult that lies outside this model. */
  datatype Services = Services(
    evaluate: ConditionExecutor.Evaluator,
    render: Value -> string,
    order: map<string, Value> -> seq<string>,
    external: (string, StepDefinition, Context) -> ExternalOutcome)

  /** The outcome of `executeStep`, with the context as the executor left it. */
  datatype StepOutcome =
    | Produced(value: Value, ctx: Context)
    | Raised(failure: Failure)
    | NoValue

  /** Every exception thrown before a `Mono` exists is rethrown with the
      step's id (a null id prints as "null"). */
  function ExecutionFailure(step: StepDefinition): Failure {
    Runtime("Failed to execute step: " + Nullable(step.id))
  }

  /** A synchronous `execute` of a modelled executor, its throw wrapped. */
  function Wrapped(step: StepDefinition, ctx: Context, r: Result<Value>): (o: StepOutcome)
    ensures r.Ok? ==> o == Produced(r.value, ctx)
    ensures r.Err? ==> o == Raised(ExecutionFailure(step))
  {
    match r
    case Ok(v) => Produced(v, ctx)
    case Err(_) => Raised(ExecutionFailure(step))
  }

  function Execute(reg: Registry, services: Services, step: StepDefinition, ctx: Context, now: int): (o: StepOutcome)
    ensures GetExecutor(reg, step.stepType).Err? ==> o == Raised(ExecutionFailure(step))
    ensures o.Produced? ==> step.stepType.Some? && step.stepType.value in SupportedStepTypes(reg)
    ensures o.Produced? ==> o.ctx == ctx.(conditionResult := o.ctx.conditionResult)
    ensures o.Produced? && step.stepType != Some(ConditionType) ==> o.ctx == ctx
    ensures o.Raised? && o.failure != ExecutionFailure(step) ==>
              exists t :: GetExecutor(reg, step.stepType) == Ok(External(t)) &&
                          services.external(t, step, ctx) == Signalled(o.failure)
    ensures o.NoValue? ==> exists t :: GetExecutor(reg, step.stepType) == Ok(External(t)) &&
                                       services.external(t, step, ctx) == CompletedEmpty
  {
    match GetExecutor(reg, step.stepType)
    case Err(_) => Raised(ExecutionFailure(step))
    case Ok(executor) =>
      match executor
      case LogStep =>
        Wrapped(step, ctx, LogExecutor.Execute(step, ctx, services.order(ctx.variables), services.render, now))
      case DelayStep =>
        Wrapped(step, ctx, DelayExecutor.Execute(step, now))
      case ConditionStep =>
        (match ConditionExecutor.Execute(step, ctx, services.evaluate, now)
         case Ok((v, after)) => Produced(v, after)
         case Err(_) => Raised(ExecutionFailure(step)))
      case External(t) =>
        match services.external(t, step, ctx)
        case Emitted(v) => Produced(v, ctx)
        case Threw(_) => Raised(ExecutionFailure(step))
        case Signalled(f) => Raised(f)
        case CompletedEmpty => NoValue
  }

  /** A step whose type no executor declares fails with the wrapped message,
      whatever its configuration. */
  lemma UnknownTypeFails(reg: Registry, services: Services, step: StepDefinition, ctx: Context, now: int)
    requires step.stepType.None? || step.stepType.value !in SupportedStepTypes(reg)
    ensures Execute(reg, services, step, ctx, now) == Raised(Runtime("Failed to execute step: " + Nullable(step.id)))
  {
  }

  /** A log step, in a registry that maps its type to the log executor, that
      reads as a template whose placeholders all name safe variables logs the
      template's expansion, whatever order the variables are visited in. */
  lemma LogStepExpands(reg: Registry, services: Services, step: StepDefinition, ctx: Context, now: int,
                       t: seq<LogExecutor.Piece>)
    requires GetExecutor(reg, Some(LogType)) == Ok(LogStep)
    requires step.stepType == Some(LogType)
    requires Get(step.config, LogExecutor.MessageKey) == Str(LogExecutor.Render(t))
    requires Get(step.config, LogExecutor.LevelKey) == Null
    requires LogExecutor.WellFormed(t) && LogExecutor.SafeVariables(ctx.variables, services.render)
    requires LogExecutor.Enumerates(services.order(ctx.variables), ctx.variables.Keys)
    ensures var o := Execute(reg, services, step, ctx, now);
            && o.Produced? && o.ctx == ctx && o.value.Dict? && LogExecutor.MessageKey in o.value.entries
            && o.value.entries[LogExecutor.MessageKey] == Str(LogExecutor.Expand(t, ctx.variables, services.render))
  {
    LogExecutor.ReplaceVariablesMeaning(t, ctx.variables, services.order(ctx.variables), services.render);
  }

  /** A condition step whose expression evaluates succeeds and sets the
      context's flag to the outcome, and changes nothing else. */
  lemma ConditionStepSetsFlag(reg: Registry, services: Services, step: StepDefinition, ctx: Context, now: int,
                              e: string)
    requires GetExecutor(reg, Some(ConditionType)) == Ok(ConditionStep)
    requires step.stepType == Some(ConditionType)
    requires ConfigString(step, ConditionExecutor.ExpressionKey) == Ok(Some(e)) && e != ""
    requires services.evaluate(e, ctx.variables).Evaluated?
    ensures var o := Execute(reg, services, step, ctx, now);
            o.Produced? && o.ctx == SetConditionResult(ctx, ConditionExecutor.Holds(services.evaluate(e, ctx.variables)))
  {
  }

  /** The standard registry maps each built-in type to its executor. */
  lemma StandardLookup()
    ensures NewRegistry(StandardExecutors).Ok?
    ensures var reg := NewRegistry(StandardExecutors).value;
            && GetExecutor(reg, Some(LogType)) == Ok(LogStep)
            && GetExecutor(reg, Some(DelayType)) == Ok(DelayStep)
            && GetExecutor(reg, Some(ConditionType)) == Ok(ConditionStep)
            && GetExecutor(reg, Some(HttpType)) == Ok(External(HttpType))
  {
    StandardRegistryBuilds();
    var e := StandardExecutors;
    LookupAfterConstruction(e, LogType);
    assert StepType(e[0]) == LogType;
    LookupAfterConstruction(e, DelayType);
    assert StepType(e[1]) == DelayType;
    LookupAfterConstruction(e, ConditionType);
    assert StepType(e[2]) == ConditionType;
    LookupAfterConstruction(e, HttpType);
    assert StepType(e[3]) == HttpType;
  }
}

=== FILE: text.dfy ===
/** The pieces of `java.lang.String`, `Long` and `String.valueOf` that the
    executors rely on, over Dafny strings. */
module Text {
  import opened Base

  /** `s.startsWith(p)`. */
  predicate IsPrefix(p: string, s: string) {
    |p| <= |s| && s[..|p|] == p
  }

  /** `s.contains(t)`. */
  predicate Contains(s: string, t: string)
    decreases |s|
  {
    IsPrefix(t, s) || (|s| > 0 && Contains(s[1..], t))
  }

  /** `s.replace(target, replacement)` for a non-empty target: every
      occurrence, scanning left to right, replaced without overlap. */
  function ReplaceAll(s: string, target: string, replacement: string): string
    requires |target| > 0
    decreases |s|
  {
    if |s| == 0 then ""
    else if IsPrefix(target, s) then replacement + ReplaceAll(s[|target|..], target, replacement)
    else [s[0]] + ReplaceAll(s[1..], target, replacement)
  }

  /** Replacing a target that does not occur changes nothing. */
  lemma {:induction false} ReplaceAllAbsent(s: string, target: string, replacement: string)
    requires |target| > 0
    requires !Contains(s, target)
    ensures ReplaceAll(s, target, replacement) == s
    decreases |s|
  {
    if |s| > 0 {
      ReplaceAllAbsent(s[1..], target, replacement);
      assert [s[0]] + s[1..] == s;
    }
  }

  /** A prefix free of the target's first character is copied through. */
  lemma {:induction false} ReplaceAllSkip(a: string, b: string, target: string, replacement: string)
    requires |target| > 0
    requires target[0] !in a
    ensures ReplaceAll(a + b, target, replacement) == a + ReplaceAll(b, target, replacement)
    decreases |a|
  {
    if |a| > 0 {
      assert (a + b)[0] == a[0];
      assert !IsPrefix(target, a + b);
      assert (a + b)[1..] == a[1..] + b;
      ReplaceAllSkip(a[1..], b, target, replacement);
      assert [a[0]] + a[1..] == a;
    } else {
      assert a + b == b;
    }
  }

  /** A string without `c` contains no string that starts with `c`. */
  lemma {:induction false} NotContainsByHead(s: string, t: string)
    requires |t| > 0
    requires t[0] !in s
    ensures !Contains(s, t)
    decreases |s|
  {
    if |s| > 0 {
      NotContainsByHead(s[1..], t);
    }
  }

  /** A string that does not contain `p` contains nothing that starts with `p`. */
  lemma {:induction false} NotContainsByPrefix(s: string, p: string, t: string)
    requires IsPrefix(p, t)
    requires !Contains(s, p)
    ensures !Contains(s, t)
    decreases |s|
  {
    if |s| > 0 {
      NotContainsByPrefix(s[1..], p, t);
    }
  }

  // ---------------------------------------------------------------------
  // Decimal numbers

  predicate IsDigit(c: char) {
    '0' <= c <= '9'
  }

  predicate AllDigits(s: string) {
    forall i :: 0 <= i < |s| ==> IsDigit(s[i])
  }

  function DigitChar(d: int): (c: char)
    requires 0 <= d < 10
    ensures IsDigit(c)
  {
    ('0' as int + d) as char
  }

  /** The value of a string of decimal digits, most significant first. */
  function DigitsValue(s: string): nat
    requires AllDigits(s)
    decreases |s|
  {
    if |s| == 0 then 0
    else DigitsValue(s[..|s| - 1]) * 10 + (s[|s| - 1] as int - '0' as int)
  }

  /** `Long.toString` of a non-negative number. */
  function NatToString(n: nat): (s: string)
    ensures |s| > 0 && AllDigits(s)
    decreases n
  {
    if n < 10 then [DigitChar(n)]
    else NatToString(n / 10) + [DigitChar(n % 10)]
  }

  /** `Long.toString` / `String.valueOf` of an integral number. */
  function IntToString(i: int): string {
    if i < 0 then "-" + NatToString(-i) else NatToString(i)
  }

  /** What `Long.parseLong` accepts, restricted to ASCII: an optional sign,
      then at least one decimal digit and nothing else. `Long.parseLong`
      reads each digit with `Character.digit`, so it also takes the decimal
      digits of other scripts (the full-width '５', say); this model reads
      '0' to '9' only. */
  predicate IsLongLiteral(s: string) {
    if |s| > 0 && (s[0] == '-' || s[0] == '+') then |s| > 1 && AllDigits(s[1..])
    else |s| > 0 && AllDigits(s)
  }

  /** `Long.parseLong(s)`; `None` is a `NumberFormatException`. */
  function ParseLong(s: string): (r: Option<int>)
    ensures r.Some? <==> IsLongLiteral(s)
  {
    if |s| == 0 then None
    else if s[0] == '-' || s[0] == '+' then
      if |s| == 1 || !AllDigits(s[1..]) then None
      else if s[0] == '-' then Some(-(DigitsValue(s[1..]) as int))
      else Some(DigitsValue(s[1..]))
    else if AllDigits(s) then Some(DigitsValue(s))
    else None
  }

  lemma {:induction false} DigitsOfNatToString(n: nat)
    ensures DigitsValue(NatToString(n)) == n
    decreases n
  {
    var s := NatToString(n);
    if n >= 10 {
      DigitsOfNatToString(n / 10);
      assert s[..|s| - 1] == NatToString(n / 10);
    }
  }

  /** `Long.parseLong(Long.toString(i)) == i`. */
  lemma ParseLongOfIntToString(i: int)
    ensures ParseLong(IntToString(i)) == Some(i)
  {
    var s := IntToString(i);
    if i < 0 {
      var t := NatToString(-i);
      assert s == "-" + t && s[0] == '-' && s[1..] == t;
      DigitsOfNatToString(-i);
      assert ParseLong(s) == Some(-(DigitsValue(t) as int));
    } else {
      assert s == NatToString(i) && IsDigit(s[0]);
      DigitsOfNatToString(i);
      assert ParseLong(s) == Some(DigitsValue(s));
    }
  }

  // ---------------------------------------------------------------------
  // String.valueOf

  /** `String.valueOf(v)`: `"null"` for null, the string itself, `"true"` /
      `"false"`, the decimal form of a number, and for a list or map whatever
      its `toString` gives, which `render` stands for. */
  function Show(v: Value, render: Value -> string): (s: string)
    ensures v == Null ==> s == "null"
    ensures v.Str? ==> s == v.s
    ensures v.Int? ==> ParseLong(s) == Some(v.i)
    ensures v.Other? ==> s == v.text
  {
    match v
    case Null => "null"
    case Bool(b) => if b then "true" else "false"
    case Int(i) => ParseLongOfIntToString(i); IntToString(i)
    case Str(s) => s
    case List(_) => render(v)
    case Dict(_) => render(v)
    case Other(text) => text
  }
}

=== FILE: workflow_definition.dfy ===
/** `WorkflowDefinition`: a stored workflow, its YAML text and version. */
module WorkflowDefinitions {
  import opened Base
  import opened WorkflowInstances

  datatype WorkflowDefinition = WorkflowDefinition(
    id: string,
    name: Option<string>,
    yamlContent: Option<string>,
    version: Option<string>,
    createdAt: Timestamp,
    updatedAt: Timestamp,
    active: bool)

  /** `create(name, yamlContent, version)`: an active definition, created
      and last updated at the same clock reading `now`. */
  function Create(id: string, name: Option<string>, yamlContent: Option<string>, version: Option<string>,
                  now: Timestamp): (r: WorkflowDefinition)
    ensures r.id == id && r.name == name && r.yamlContent == yamlContent && r.version == version
    ensures r.active && r.createdAt == r.updatedAt == now
  {
    WorkflowDefinition(id, name, yamlContent, version, now, now, true)
  }
}

=== FILE: workflow_executor.dfy ===
/** `WorkflowExecutor`: runs a stored workflow definition to completion,
    saving the instance record and one record per step as it goes.

    The reactive pipeline is modelled as a sequence of saves (the trace) and
    an outcome. The repositories' `save` is taken to hand back the record it
    was given. Clock readings and random ids come from `Env`, indexed by the
    number of saves made before the record that carries them is saved. This
    is an abstraction of the source's reading order, not a copy of it: the
    argument of `.then(...)` is built eagerly, so `withCurrentStep` and the
    failed instance's `withError` read the clock one save earlier than here,
    and an executor's timestamp and the step's completion time, two readings
    in the source, share one index here. No property below depends on the
    exact readings. */
module WorkflowExecution {
  import opened Base
  import opened Text
  import opened StepDefinitions
  import opened DefinitionModels
  import opened YamlParser
  import opened ExecutionContexts
  import opened Registry
  import opened StepDispatch
  import opened WorkflowInstances
  import Steps = WorkflowSteps
  import WorkflowDefinitions

  datatype Env = Env(
    load: Option<string> -> LoadResult,
    services: Services,
    clock: nat -> Timestamp,
    uuid: nat -> string)

  /** One call of `instanceRepository.save` or `stepRepository.save`. */
  datatype Save = SaveInstance(inst: WorkflowInstance) | SaveStep(rec: Steps.WorkflowStep)

  /** How the returned `Mono` ends: with the last instance saved, with an
      error, or not within the step budget. */
  datatype Outcome = Finished(instance: WorkflowInstance) | Aborted(failure: Failure) | OutOfFuel

  datatype Run = Run(trace: seq<Save>, outcome: Outcome)

  /** `executeStep` as the step chain sees it: a step, the context and the
      clock reading give an outcome. */
  type StepRunner = (StepDefinition, Context, Timestamp) -> StepOutcome

  /** A runner whose executors change nothing in the context but the
      condition flag, as the registry's executors do. */
  ghost predicate Confined(exec: StepRunner) {
    forall step, ctx, now :: exec(step, ctx, now).Produced? ==>
      exec(step, ctx, now).ctx == ctx.(conditionResult := exec(step, ctx, now).ctx.conditionResult)
  }

  lemma ConfinedAt(exec: StepRunner, step: StepDefinition, ctx: Context, now: Timestamp)
    requires Confined(exec)
    ensures exec(step, ctx, now).Produced? ==>
              exec(step, ctx, now).ctx == ctx.(conditionResult := exec(step, ctx, now).ctx.conditionResult)
  {
  }

  /** The registry's executors behind `executeStep`. */
  function Dispatcher(reg: Registry, services: Services): StepRunner {
    (step: StepDefinition, ctx: Context, now: Timestamp) => StepDispatch.Execute(reg, services, step, ctx, now)
  }

  lemma DispatcherConfined(reg: Registry, services: Services)
    ensures Confined(Dispatcher(reg, services))
  {
    forall step, ctx, now | Dispatcher(reg, services)(step, ctx, now).Produced?
      ensures Dispatcher(reg, services)(step, ctx, now).ctx ==
              ctx.(conditionResult := Dispatcher(reg, services)(step, ctx, now).ctx.conditionResult)
    {
      assert Dispatcher(reg, services)(step, ctx, now) == StepDispatch.Execute(reg, services, step, ctx, now);
    }
  }

  const InputVariable := "input"

  /** The text stored as a step record's input: the `input` variable's
      string form, or null. */
  function InputText(ctx: Context, render: Value -> string): Option<string> {
    var v := GetVariable(ctx, InputVariable);
    if v == Null then None else Some(Show(v, render))
  }

  /** Saving `inst` with status COMPLETED ends the run. */
  function Complete(env: Env, inst: WorkflowInstance, trace: seq<Save>): (r: Run)
    ensures r.outcome.Finished? && r.outcome.instance.status == Completed
    ensures r.trace == trace + [SaveInstance(r.outcome.instance)]
    ensures SameRun(inst, r.outcome.instance) && r.outcome.instance.currentStepId == inst.currentStepId
  {
    var done := WithStatus(inst, Completed, env.clock(|trace|));
    Run(trace + [SaveInstance(done)], Finished(done))
  }

  /** The error handler of a step: the step's RUNNING record is saved again
      as FAILED, then `inst` (the instance as it was before the step) is
      saved as FAILED, both with the exception's message. */
  function Fail(env: Env, inst: WorkflowInstance, running: Steps.WorkflowStep, f: Failure, trace: seq<Save>): (r: Run)
    ensures r.outcome.Finished? && r.outcome.instance.status == Failed
    ensures r.outcome.instance.errorMessage == Some(f.Message())
    ensures |r.trace| == |trace| + 2 && r.trace[..|trace|] == trace
    ensures r.trace[|trace|].SaveStep? && r.trace[|trace| + 1] == SaveInstance(r.outcome.instance)
    ensures var rec := r.trace[|trace|].rec;
            Steps.SameStep(running, rec) && rec.status == Failed && rec.errorMessage == Some(f.Message()) &&
            rec.output == running.output
    ensures SameRun(inst, r.outcome.instance) && r.outcome.instance.currentStepId == inst.currentStepId
  {
    var message := Some(f.Message());
    var failedStep := Steps.WithError(running, message, env.clock(|trace|));
    var failed := WithError(inst, message, env.clock(|trace| + 1));
    Run(trace + [SaveStep(failedStep), SaveInstance(failed)], Finished(failed))
  }

  /** Where one round of `executeStepChain` leaves the run: at the next step,
      or stopped. */
  datatype Transition =
    | Continue(inst: WorkflowInstance, step: StepDefinition, ctx: Context, trace: seq<Save>)
    | Stop(run: Run)

  /** The saves a round leaves behind, whether it stopped or goes on. */
  function Saved(t: Transition): seq<Save> {
    if t.Stop? then t.run.trace else t.trace
  }

  /** The step record saved as the step starts: PENDING as created, then
      RUNNING. */
  function RunningRecord(env: Env, inst: WorkflowInstance, step: StepDefinition, ctx: Context, trace: seq<Save>)
    : Steps.WorkflowStep
  {
    var record := Steps.Create(env.uuid(|trace|), inst.id, step.id, step.stepType,
                               Some(env.services.render(Dict(step.config))), InputText(ctx, env.services.render));
    Steps.WithStatus(record, Running, env.clock(|trace|))
  }

  lemma RunningRecordOf(env: Env, inst: WorkflowInstance, step: StepDefinition, ctx: Context, trace: seq<Save>)
    ensures var rec := RunningRecord(env, inst, step, ctx, trace);
            && rec.status == Running && rec.workflowInstanceId == inst.id
            && Records(rec, step, env.services.render)
  {
  }

  /** One round of `executeStepChain` for a present step: record it as
      RUNNING and execute it. */
  function AttemptStep(model: WorkflowDefinitionModel, exec: StepRunner, env: Env, inst: WorkflowInstance,
                       step: StepDefinition, ctx: Context, trace: seq<Save>): Transition
  {
    var ctx1 := SetCurrentStepId(ctx, step.id);
    var running := RunningRecord(env, inst, step, ctx1, trace);
    var trace1 := trace + [SaveStep(running)];
    match exec(step, ctx1, env.clock(|trace1|))
    case NoValue =>
      // The whole pipeline completes empty, and `doOnSuccess` dereferences the null instance.
      Stop(Run(trace1, Aborted(NullPointer)))
    case Raised(f) => Stop(Fail(env, inst, running, f, trace1))
    case Produced(v, ctx2) => AfterResult(model, env, inst, step, running, v, ctx2, trace1)
  }

  /** The rest of the round once the step produced `v`: save its result,
      move the instance's current step to it, and go to the next step. */
  function AfterResult(model: WorkflowDefinitionModel, env: Env, inst: WorkflowInstance, step: StepDefinition,
                       running: Steps.WorkflowStep, v: Value, ctx: Context, trace: seq<Save>): Transition
  {
    var completed := Steps.WithResult(running, Some(Show(v, env.services.render)), env.clock(|trace|));
    var trace1 := trace + [SaveStep(completed)];
    var updated := WithCurrentStep(inst, step.id, env.clock(|trace1|));
    Advance(model, env, inst, step, running, updated, SetLastResult(ctx, v), trace1 + [SaveInstance(updated)])
  }

  /** Leave a step whose result is saved for the next one. A failure here
      is handled by the same handler as a failed execution, with the
      instance as it was before the step. */
  function Advance(model: WorkflowDefinitionModel, env: Env, inst: WorkflowInstance, step: StepDefinition,
                   running: Steps.WorkflowStep, updated: WorkflowInstance, ctx: Context, trace: seq<Save>): Transition
  {
    if step.stepType.None? then
      // `getNextStep` switches on the type; the registry never runs a step without one.
      Stop(Fail(env, inst, running, NullPointer, trace))
    else
      match NextStep(step, ctx.conditionResult)
      case None => Stop(Complete(env, updated, trace))
      case Some(nextId) =>
        match FindStep(model, nextId)
        case Err(f) => Stop(Fail(env, inst, running, f, trace))
        case Ok(next) => Continue(updated, next, ctx, trace)
  }

  /** One round of the chain: from the instance, the step, the context and
      the saves so far to the next step or the end of the run. */
  type Round = (WorkflowInstance, StepDefinition, Context, seq<Save>) -> Transition

  /** The rounds `executeStepChain` makes with a given `executeStep`. */
  function Rounds(model: WorkflowDefinitionModel, exec: StepRunner, env: Env): Round {
    (inst: WorkflowInstance, step: StepDefinition, ctx: Context, trace: seq<Save>) =>
      AttemptStep(model, exec, env, inst, step, ctx, trace)
  }

  /** `executeStepChain`, for at most `fuel` steps: a null step completes
      the instance, a present one makes a round. */
  function ExecuteStepChain(round: Round, env: Env, inst: WorkflowInstance, step: Option<StepDefinition>,
                            ctx: Context, trace: seq<Save>, fuel: nat): Run
    decreases fuel
  {
    match step
    case None => Complete(env, inst, trace)
    case Some(s) =>
      if fuel == 0 then Run(trace, OutOfFuel)
      else
        match round(inst, s, ctx, trace)
        case Stop(r) => r
        case Continue(inst', next, ctx', trace') => ExecuteStepChain(round, env, inst', Some(next), ctx', trace', fuel - 1)
  }

  /** `executeWorkflowSteps`: set up the context from the definition's
      variables and the input, then complete at once or run from the first
      step. */
  function ExecuteWorkflowSteps(model: WorkflowDefinitionModel, reg: Registry, env: Env, inst: WorkflowInstance,
                                input: Option<string>, trace: seq<Save>, fuel: nat): Run
  {
    match model.variables
    case None => Run(trace, Aborted(NullPointer))   // copying a null map
    case Some(vars) =>
      var ctx := SetVariable(NewContext(inst.id, vars), InputVariable, FromNullable(input));
      match FirstStep(model)
      case None => Complete(env, inst, trace)
      case Some(first) =>
        var running := WithStatus(inst, Running, env.clock(|trace|));
        ExecuteStepChain(Rounds(model, Dispatcher(reg, env.services), env), env, running, Some(first), ctx,
                         trace + [SaveInstance(running)], fuel)
  }

  /** `executeWorkflow`: parse the definition's YAML, save a PENDING
      instance, and run it. */
  function ExecuteWorkflow(reg: Registry, env: Env, definition: WorkflowDefinitions.WorkflowDefinition,
                           input: Option<string>, fuel: nat): Run
  {
    match ParseWorkflow(env.load(definition.yamlContent))
    case Err(f) => Run([], Aborted(f))
    case Ok(model) =>
      var inst := Create(env.uuid(0), definition.id, input, env.clock(0));
      ExecuteWorkflowSteps(model, reg, env, inst, input, [SaveInstance(inst)], fuel)
  }

  // ---------------------------------------------------------------------
  // What every run keeps

  /** Every instance record saved so far is RUNNING, except a PENDING one
      as the very first record: none is finished, and none goes back to
      PENDING. */
  predicate Open(trace: seq<Save>) {
    forall i :: 0 <= i < |trace| && trace[i].SaveInstance? ==>
      trace[i].inst.status == Running || (i == 0 && trace[i].inst.status == WorkflowInstances.Pending)
  }

  /** The step record describes `step` of the definition. */
  predicate Records(rec: Steps.WorkflowStep, step: StepDefinition, render: Value -> string) {
    rec.stepId == step.id && rec.stepType == step.stepType && rec.stepConfig == Some(render(Dict(step.config)))
  }

  /** Every record saved belongs to the run `run`: instance records keep its
      identity, input and start time; step records point at it, carry the
      run's raw input and describe a step of the definition. */
  predicate OfRun(trace: seq<Save>, run: WorkflowInstance, model: WorkflowDefinitionModel, render: Value -> string) {
    forall i :: 0 <= i < |trace| ==>
      (trace[i].SaveInstance? ==> SameRun(run, trace[i].inst)) &&
      (trace[i].SaveStep? ==> trace[i].rec.workflowInstanceId == run.id && trace[i].rec.input == run.input &&
                              exists s :: s in model.steps && Records(trace[i].rec, s, render))
  }

  /** The state a round of the step chain starts from. */
  predicate ChainState(model: WorkflowDefinitionModel, env: Env, run: WorkflowInstance, inst: WorkflowInstance,
                       step: StepDefinition, ctx: Context, trace: seq<Save>) {
    && inst.status == Running && SameRun(run, inst)
    && ctx.instanceId == run.id && GetVariable(ctx, InputVariable) == FromNullable(run.input)
    && step in model.steps
    && Open(trace) && OfRun(trace, run, model, env.services.render)
  }

  /** What a finished or stopped run guarantees about its trace. */
  predicate Ends(r: Run, trace: seq<Save>, run: WorkflowInstance, model: WorkflowDefinitionModel, render: Value -> string) {
    && |trace| <= |r.trace| && r.trace[..|trace|] == trace
    && OfRun(r.trace, run, model, render)
    && (r.outcome.Finished? ==>
          && |r.trace| > 0 && r.trace[|r.trace| - 1] == SaveInstance(r.outcome.instance)
          && IsTerminal(r.outcome.instance.status)
          && Open(r.trace[..|r.trace| - 1]))
    && (!r.outcome.Finished? ==> Open(r.trace))
    && (r.outcome.Aborted? ==> r.outcome.failure == NullPointer)
    && (r.outcome.Finished? && r.outcome.instance.status == Failed ==>
          && |r.trace| >= 2 && r.trace[|r.trace| - 2].SaveStep?
          && r.trace[|r.trace| - 2].rec.status == Failed
          && r.trace[|r.trace| - 2].rec.errorMessage == r.outcome.instance.errorMessage)
  }

  lemma InputTextIsInput(ctx: Context, render: Value -> string, input: Option<string>)
    requires GetVariable(ctx, InputVariable) == FromNullable(input)
    ensures InputText(ctx, render) == input
  {
  }

  /** Appending a record that belongs to the run keeps the invariants. */
  lemma AppendKeeps(trace: seq<Save>, x: Save, run: WorkflowInstance, model: WorkflowDefinitionModel,
                    render: Value -> string)
    requires OfRun(trace, run, model, render)
    requires x.SaveInstance? ==> SameRun(run, x.inst)
    requires x.SaveStep? ==> x.rec.workflowInstanceId == run.id && x.rec.input == run.input &&
                             exists s :: s in model.steps && Records(x.rec, s, render)
    ensures OfRun(trace + [x], run, model, render)
    ensures Open(trace) && (x.SaveStep? || x.inst.status == Running) ==> Open(trace + [x])
  {
    var t := trace + [x];
    forall i | 0 <= i < |t|
      ensures (t[i].SaveInstance? ==> SameRun(run, t[i].inst)) &&
              (t[i].SaveStep? ==> t[i].rec.workflowInstanceId == run.id && t[i].rec.input == run.input &&
                                  exists s :: s in model.steps && Records(t[i].rec, s, render))
    {
      if i < |trace| {
        assert t[i] == trace[i];
      }
    }
  }

  /** One round keeps the chain's invariants, and a stop ends the run as
      `Ends` describes. */
  lemma AttemptStepKeeps(model: WorkflowDefinitionModel, exec: StepRunner, env: Env, run: WorkflowInstance,
                         inst: WorkflowInstance, step: StepDefinition, ctx: Context, trace: seq<Save>)
    requires ChainState(model, env, run, inst, step, ctx, trace) && Confined(exec)
    ensures KeepsFrom(AttemptStep(model, exec, env, inst, step, ctx, trace), model, env, run, trace)
  {
    var render := env.services.render;
    var ctx1 := SetCurrentStepId(ctx, step.id);
    InputTextIsInput(ctx1, render, run.input);
    var running := RunningRecord(env, inst, step, ctx1, trace);
    assert Records(running, step, render);
    var trace1 := trace + [SaveStep(running)];
    AppendKeeps(trace, SaveStep(running), run, model, render);
    match exec(step, ctx1, env.clock(|trace1|))
    case NoValue =>
      assert trace1[..|trace|] == trace;
    case Raised(f) =>
      FailEnds(env, run, model, inst, running, step, f, trace1);
      assert trace1[..|trace|] == trace;
    case Produced(v, ctx2) =>
      ConfinedAt(exec, step, ctx1, env.clock(|trace1|));
      AfterResultKeeps(model, env, run, inst, step, running, v, ctx2, trace, trace1);
  }

  lemma AfterResultKeeps(model: WorkflowDefinitionModel, env: Env, run: WorkflowInstance, inst: WorkflowInstance,
                         step: StepDefinition, running: Steps.WorkflowStep, v: Value, ctx: Context,
                         start: seq<Save>, trace: seq<Save>)
    requires inst.status == Running && SameRun(run, inst)
    requires ctx.instanceId == run.id && GetVariable(ctx, InputVariable) == FromNullable(run.input)
    requires step in model.steps && Records(running, step, env.services.render)
    requires running.workflowInstanceId == run.id && running.input == run.input
    requires Open(trace) && OfRun(trace, run, model, env.services.render)
    requires |start| < |trace| && trace[..|start|] == start
    ensures KeepsFrom(AfterResult(model, env, inst, step, running, v, ctx, trace), model, env, run, start)
  {
    var render := env.services.render;
    var completed := Steps.WithResult(running, Some(Show(v, render)), env.clock(|trace|));
    assert Records(completed, step, render);
    var trace1 := trace + [SaveStep(completed)];
    AppendKeeps(trace, SaveStep(completed), run, model, render);
    var updated := WithCurrentStep(inst, step.id, env.clock(|trace1|));
    var trace2 := trace1 + [SaveInstance(updated)];
    AppendKeeps(trace1, SaveInstance(updated), run, model, render);
    assert trace2[..|start|] == start;
    AdvanceKeeps(model, env, run, inst, step, running, updated, SetLastResult(ctx, v), start, trace2);
  }

  lemma AdvanceKeeps(model: WorkflowDefinitionModel, env: Env, run: WorkflowInstance, inst: WorkflowInstance,
                     step: StepDefinition, running: Steps.WorkflowStep, updated: WorkflowInstance, ctx: Context,
                     start: seq<Save>, trace: seq<Save>)
    requires SameRun(run, inst) && updated.status == Running && SameRun(run, updated)
    requires ctx.instanceId == run.id && GetVariable(ctx, InputVariable) == FromNullable(run.input)
    requires step in model.steps && Records(running, step, env.services.render)
    requires running.workflowInstanceId == run.id && running.input == run.input
    requires Open(trace) && OfRun(trace, run, model, env.services.render)
    requires |start| < |trace| && trace[..|start|] == start
    ensures KeepsFrom(Advance(model, env, inst, step, running, updated, ctx, trace), model, env, run, start)
  {
    if step.stepType.None? {
      FailEnds(env, run, model, inst, running, step, NullPointer, trace);
    } else {
      match NextStep(step, ctx.conditionResult)
      case None =>
        CompleteEnds(env, run, model, updated, start, trace);
      case Some(nextId) =>
        match FindStep(model, nextId)
        case Err(f) =>
          FailEnds(env, run, model, inst, running, step, f, trace);
        case Ok(next) =>
          var i :| 0 <= i < |model.steps| && model.steps[i] == next && PassedOver(model.steps, nextId, i);
    }
  }

  lemma CompleteEnds(env: Env, run: WorkflowInstance, model: WorkflowDefinitionModel, inst: WorkflowInstance,
                     start: seq<Save>, trace: seq<Save>)
    requires SameRun(run, inst) && Open(trace) && OfRun(trace, run, model, env.services.render)
    requires |start| <= |trace| && trace[..|start|] == start
    ensures Ends(Complete(env, inst, trace), start, run, model, env.services.render)
  {
    var r := Complete(env, inst, trace);
    AppendKeeps(trace, SaveInstance(r.outcome.instance), run, model, env.services.render);
    assert r.trace[..|r.trace| - 1] == trace;
    assert r.trace[..|start|] == trace[..|start|];
  }

  lemma FailEnds(env: Env, run: WorkflowInstance, model: WorkflowDefinitionModel, inst: WorkflowInstance,
                 running: Steps.WorkflowStep, step: StepDefinition, f: Failure, trace: seq<Save>)
    requires SameRun(run, inst) && Open(trace) && OfRun(trace, run, model, env.services.render)
    requires running.workflowInstanceId == run.id && running.input == run.input
    requires step in model.steps && Records(running, step, env.services.render)
    requires |trace| > 0
    ensures forall start: seq<Save> :: |start| <= |trace| && trace[..|start|] == start ==>
              Ends(Fail(env, inst, running, f, trace), start, run, model, env.services.render)
  {
    var render := env.services.render;
    var r := Fail(env, inst, running, f, trace);
    var failedStep := r.trace[|trace|];
    assert Records(failedStep.rec, step, render);
    AppendKeeps(trace, failedStep, run, model, render);
    assert r.trace[..|trace| + 1] == trace + [failedStep];
    AppendKeeps(trace + [failedStep], SaveInstance(r.outcome.instance), run, model, render);
    assert r.trace == trace + [failedStep] + [SaveInstance(r.outcome.instance)];
    assert r.trace[..|r.trace| - 1] == trace + [failedStep];
  }

  /** `Ends` measured from a later point of the trace also holds from an
      earlier one. */
  lemma EndsFromEarlier(r: Run, start: seq<Save>, later: seq<Save>, run: WorkflowInstance,
                        model: WorkflowDefinitionModel, render: Value -> string)
    requires Ends(r, later, run, model, render)
    requires |start| <= |later| && later[..|start|] == start
    ensures Ends(r, start, run, model, render)
  {
    assert r.trace[..|start|] == r.trace[..|later|][..|start|];
  }

  /** A round that, from a chain state, either reaches the next chain state
      further along the trace or stops as `Ends` describes. */
  ghost predicate RoundKeeps(round: Round, model: WorkflowDefinitionModel, env: Env, run: WorkflowInstance) {
    forall inst, step, ctx, trace :: ChainState(model, env, run, inst, step, ctx, trace) ==>
      KeepsFrom(round(inst, step, ctx, trace), model, env, run, trace)
  }

  predicate KeepsFrom(t: Transition, model: WorkflowDefinitionModel, env: Env, run: WorkflowInstance, trace: seq<Save>) {
    && (t.Continue? ==> ChainState(model, env, run, t.inst, t.step, t.ctx, t.trace) &&
                        |trace| < |t.trace| && t.trace[..|trace|] == trace)
    && (t.Stop? ==> Ends(t.run, trace, run, model, env.services.render))
  }

  lemma RoundKeepsAt(round: Round, model: WorkflowDefinitionModel, env: Env, run: WorkflowInstance,
                     inst: WorkflowInstance, step: StepDefinition, ctx: Context, trace: seq<Save>)
    requires RoundKeeps(round, model, env, run) && ChainState(model, env, run, inst, step, ctx, trace)
    ensures KeepsFrom(round(inst, step, ctx, trace), model, env, run, trace)
  {
  }

  /** The rounds of `executeStepChain` keep the chain's invariants whatever
      the executors return, as long as they only touch the condition flag. */
  lemma RoundsKeep(model: WorkflowDefinitionModel, exec: StepRunner, env: Env, run: WorkflowInstance)
    requires Confined(exec)
    ensures RoundKeeps(Rounds(model, exec, env), model, env, run)
  {
    forall inst, step, ctx, trace | ChainState(model, env, run, inst, step, ctx, trace)
      ensures KeepsFrom(Rounds(model, exec, env)(inst, step, ctx, trace), model, env, run, trace)
    {
      AttemptStepKeeps(model, exec, env, run, inst, step, ctx, trace);
    }
  }

  /** Every run of a chain whose rounds keep the invariants ends as `Ends`
      describes. */
  lemma {:induction false} ChainEnds(round: Round, model: WorkflowDefinitionModel, env: Env, run: WorkflowInstance,
                                     inst: WorkflowInstance, step: StepDefinition, ctx: Context, trace: seq<Save>,
                                     fuel: nat)
    requires ChainState(model, env, run, inst, step, ctx, trace) && RoundKeeps(round, model, env, run)
    ensures Ends(ExecuteStepChain(round, env, inst, Some(step), ctx, trace, fuel), trace, run, model,
                 env.services.render)
    decreases fuel
  {
    if fuel > 0 {
      var t := round(inst, step, ctx, trace);
      RoundKeepsAt(round, model, env, run, inst, step, ctx, trace);
      ChainUnfolds(round, env, inst, step, ctx, trace, fuel);
      if t.Continue? {
        ChainEnds(round, model, env, run, t.inst, t.step, t.ctx, t.trace, fuel - 1);
        var r := ExecuteStepChain(round, env, t.inst, Some(t.step), t.ctx, t.trace, fuel - 1);
        EndsFromEarlier(r, trace, t.trace, run, model, env.services.render);
      }
    }
  }

  /** One round of the chain, for a positive budget. */
  lemma ChainUnfolds(round: Round, env: Env, inst: WorkflowInstance, step: StepDefinition, ctx: Context,
                     trace: seq<Save>, fuel: nat)
    requires fuel > 0
    ensures var t := round(inst, step, ctx, trace);
            t.Stop? ==> ExecuteStepChain(round, env, inst, Some(step), ctx, trace, fuel) == t.run
    ensures var t := round(inst, step, ctx, trace);
            t.Continue? ==> ExecuteStepChain(round, env, inst, Some(step), ctx, trace, fuel) ==
                            ExecuteStepChain(round, env, t.inst, Some(t.step), t.ctx, t.trace, fuel - 1)
  {
  }

  /** The instance record a run starts from. */
  function PendingInstance(env: Env, definition: WorkflowDefinitions.WorkflowDefinition, input: Option<string>): WorkflowInstance {
    Create(env.uuid(0), definition.id, input, env.clock(0))
  }

  /** `executeWorkflowSteps` from a PENDING instance saved as the first
      record ends as `Ends` describes. */
  lemma WorkflowStepsEnd(model: WorkflowDefinitionModel, reg: Registry, env: Env, pending: WorkflowInstance,
                         input: Option<string>, fuel: nat)
    requires pending.status == WorkflowInstances.Pending && pending.input == input
    ensures Ends(ExecuteWorkflowSteps(model, reg, env, pending, input, [SaveInstance(pending)], fuel),
                 [SaveInstance(pending)], pending, model, env.services.render)
  {
    var render := env.services.render;
    var trace0 := [SaveInstance(pending)];
    assert Open(trace0) && OfRun(trace0, pending, model, render);
    match model.variables
    case None =>
    case Some(vars) =>
      var ctx := SetVariable(NewContext(pending.id, vars), InputVariable, FromNullable(input));
      match FirstStep(model)
      case None =>
        CompleteEnds(env, pending, model, pending, trace0, trace0);
      case Some(first) =>
        var running := WithStatus(pending, Running, env.clock(1));
        AppendKeeps(trace0, SaveInstance(running), pending, model, render);
        var trace1 := trace0 + [SaveInstance(running)];
        DispatcherConfined(reg, env.services);
        RoundsKeep(model, Dispatcher(reg, env.services), env, pending);
        ChainEnds(Rounds(model, Dispatcher(reg, env.services), env), model, env, pending, running, first, ctx, trace1,
                  fuel);
        var r := ExecuteStepChain(Rounds(model, Dispatcher(reg, env.services), env), env, running, Some(first), ctx,
                                  trace1, fuel);
        assert r.trace[..1] == r.trace[..|trace1|][..1];
  }

  lemma EndsStartsWith(r: Run, pending: WorkflowInstance, model: WorkflowDefinitionModel, render: Value -> string)
    requires Ends(r, [SaveInstance(pending)], pending, model, render)
    ensures |r.trace| > 0 && r.trace[0] == SaveInstance(pending)
  {
    assert r.trace[..1][0] == r.trace[0];
  }

  /** The statuses a run's instance records go through: after the first
      record every instance record is RUNNING, except the last record of a
      finished run, which is COMPLETED or FAILED. */
  lemma EndsStatuses(r: Run, start: seq<Save>, run: WorkflowInstance, model: WorkflowDefinitionModel,
                     render: Value -> string)
    requires Ends(r, start, run, model, render)
    ensures forall i :: 0 < i < |r.trace| && r.trace[i].SaveInstance? ==>
              if r.outcome.Finished? && i == |r.trace| - 1 then IsTerminal(r.trace[i].inst.status)
              else r.trace[i].inst.status == Running
  {
    forall i | 0 < i < |r.trace| && r.trace[i].SaveInstance?
      ensures if r.outcome.Finished? && i == |r.trace| - 1 then IsTerminal(r.trace[i].inst.status)
              else r.trace[i].inst.status == Running
    {
      if r.outcome.Finished? && i < |r.trace| - 1 {
        assert r.trace[..|r.trace| - 1][i] == r.trace[i];
      }
    }
  }

  /** A definition whose YAML does not parse saves nothing, and the run
      fails with the parser's "Invalid workflow YAML" exception. */
  lemma ParseFailureSavesNothing(reg: Registry, env: Env, definition: WorkflowDefinitions.WorkflowDefinition,
                                 input: Option<string>, fuel: nat)
    requires ParseWorkflow(env.load(definition.yamlContent)).Err?
    ensures var f := ParseWorkflow(env.load(definition.yamlContent)).failure;
            && ExecuteWorkflow(reg, env, definition, input, fuel) == Run([], Aborted(f))
            && f.IllegalArgument? && IsPrefix(ParseErrorPrefix, f.message)
  {
  }

  /** `executeWorkflow` end to end, for a definition that parses: the first
      save is the PENDING instance; every later record belongs to that run;
      every later instance record is RUNNING except the last one of a
      finished run, which is COMPLETED or FAILED; a FAILED run's last
      step record failed with the same message; and the only error the
      returned `Mono` can carry is a `NullPointerException` (null variables,
      or an executor whose `Mono` was empty). */
  lemma ExecuteWorkflowEnds(reg: Registry, env: Env, definition: WorkflowDefinitions.WorkflowDefinition,
                            input: Option<string>, fuel: nat)
    requires ParseWorkflow(env.load(definition.yamlContent)).Ok?
    ensures var r := ExecuteWorkflow(reg, env, definition, input, fuel);
            var pending := PendingInstance(env, definition, input);
            && pending.status == WorkflowInstances.Pending
            && |r.trace| > 0 && r.trace[0] == SaveInstance(pending)
            && Ends(r, [SaveInstance(pending)], pending, ParseWorkflow(env.load(definition.yamlContent)).value,
                    env.services.render)
            && forall i :: 0 < i < |r.trace| && r.trace[i].SaveInstance? ==>
                 if r.outcome.Finished? && i == |r.trace| - 1 then IsTerminal(r.trace[i].inst.status)
                 else r.trace[i].inst.status == Running
  {
    var model := ParseWorkflow(env.load(definition.yamlContent)).value;
    var pending := PendingInstance(env, definition, input);
    var r := ExecuteWorkflow(reg, env, definition, input, fuel);
    assert r == ExecuteWorkflowSteps(model, reg, env, pending, input, [SaveInstance(pending)], fuel);
    WorkflowStepsEnd(model, reg, env, pending, input, fuel);
    EndsStartsWith(r, pending, model, env.services.render);
    EndsStatuses(r, [SaveInstance(pending)], pending, model, env.services.render);
  }

  /** Leaving a step only appends to the saves. */
  lemma AdvanceExtends(model: WorkflowDefinitionModel, env: Env, inst: WorkflowInstance, step: StepDefinition,
                       running: Steps.WorkflowStep, updated: WorkflowInstance, ctx: Context, trace: seq<Save>)
    ensures var saved := Saved(Advance(model, env, inst, step, running, updated, ctx, trace));
            |trace| <= |saved| && saved[..|trace|] == trace
  {
  }

  /** Saving a step's result and leaving it only appends to the saves. */
  lemma AfterResultExtends(model: WorkflowDefinitionModel, env: Env, inst: WorkflowInstance, step: StepDefinition,
                           running: Steps.WorkflowStep, v: Value, ctx: Context, trace: seq<Save>)
    ensures var saved := Saved(AfterResult(model, env, inst, step, running, v, ctx, trace));
            |trace| <= |saved| && saved[..|trace|] == trace
  {
    var completed := Steps.WithResult(running, Some(Show(v, env.services.render)), env.clock(|trace|));
    var trace1 := trace + [SaveStep(completed)];
    var updated := WithCurrentStep(inst, step.id, env.clock(|trace1|));
    var trace2 := trace1 + [SaveInstance(updated)];
    AdvanceExtends(model, env, inst, step, running, updated, SetLastResult(ctx, v), trace2);
    var saved := Saved(Advance(model, env, inst, step, running, updated, SetLastResult(ctx, v), trace2));
    assert saved[..|trace|] == saved[..|trace2|][..|trace|];
  }

  /** Whatever the executor does, the first record a round saves is the
      step's RUNNING record. */
  lemma AttemptStepSavesRunning(model: WorkflowDefinitionModel, exec: StepRunner, env: Env, inst: WorkflowInstance,
                                step: StepDefinition, ctx: Context, trace: seq<Save>)
    ensures var saved := Saved(AttemptStep(model, exec, env, inst, step, ctx, trace));
            var running := RunningRecord(env, inst, step, SetCurrentStepId(ctx, step.id), trace);
            |trace| < |saved| && saved[..|trace|] == trace && saved[|trace|] == SaveStep(running)
  {
    var ctx1 := SetCurrentStepId(ctx, step.id);
    var running := RunningRecord(env, inst, step, ctx1, trace);
    var trace1 := trace + [SaveStep(running)];
    match exec(step, ctx1, env.clock(|trace1|))
    case NoValue =>
      assert AttemptStep(model, exec, env, inst, step, ctx, trace) == Stop(Run(trace1, Aborted(NullPointer)));
      assert trace1[..|trace|] == trace;
    case Raised(f) =>
      var r := Fail(env, inst, running, f, trace1);
      assert AttemptStep(model, exec, env, inst, step, ctx, trace) == Stop(r);
      assert r.trace[..|trace|] == trace1[..|trace|] == trace;
      assert r.trace[|trace|] == trace1[|trace|];
    case Produced(v, ctx2) =>
      var saved := Saved(AfterResult(model, env, inst, step, running, v, ctx2, trace1));
      assert AttemptStep(model, exec, env, inst, step, ctx, trace) ==
             AfterResult(model, env, inst, step, running, v, ctx2, trace1);
      AfterResultExtends(model, env, inst, step, running, v, ctx2, trace1);
      assert saved[..|trace|] == saved[..|trace1|][..|trace|];
      assert saved[|trace|] == saved[..|trace1|][|trace|];
  }

  /** A round that only appends to the saves. */
  ghost predicate RoundExtends(round: Round) {
    forall inst, step, ctx, trace ::
      |trace| < |Saved(round(inst, step, ctx, trace))| && Saved(round(inst, step, ctx, trace))[..|trace|] == trace
  }

  lemma RoundsExtend(model: WorkflowDefinitionModel, exec: StepRunner, env: Env)
    ensures RoundExtends(Rounds(model, exec, env))
  {
    forall inst, step, ctx, trace
      ensures var saved := Saved(Rounds(model, exec, env)(inst, step, ctx, trace));
              |trace| < |saved| && saved[..|trace|] == trace
    {
      AttemptStepSavesRunning(model, exec, env, inst, step, ctx, trace);
    }
  }

  /** A chain whose rounds only append keeps the saves it starts from and,
      with budget left, begins with what its first round saves. */
  lemma {:induction false} ChainExtends(round: Round, env: Env, inst: WorkflowInstance,
                                        step: Option<StepDefinition>, ctx: Context, trace: seq<Save>, fuel: nat)
    requires RoundExtends(round)
    ensures var r := ExecuteStepChain(round, env, inst, step, ctx, trace, fuel);
            |trace| <= |r.trace| && r.trace[..|trace|] == trace
    ensures step.Some? && fuel > 0 ==>
              var r := ExecuteStepChain(round, env, inst, step, ctx, trace, fuel);
              var first := Saved(round(inst, step.value, ctx, trace));
              |first| <= |r.trace| && r.trace[..|first|] == first
    decreases fuel
  {
    if step.Some? && fuel > 0 {
      var t := round(inst, step.value, ctx, trace);
      var first := Saved(t);
      assert |trace| < |first| && first[..|trace|] == trace;
      ChainUnfolds(round, env, inst, step.value, ctx, trace, fuel);
      var r := ExecuteStepChain(round, env, inst, step, ctx, trace, fuel);
      if t.Continue? {
        ChainExtends(round, env, t.inst, Some(t.step), t.ctx, t.trace, fuel - 1);
      }
      assert r.trace[..|first|] == first;
      assert r.trace[..|trace|] == r.trace[..|first|][..|trace|];
    }
  }

  /** The step chain keeps the saves made so far and, with budget left,
      saves its first step's RUNNING record next. */
  lemma ChainStartsWithStep(model: WorkflowDefinitionModel, exec: StepRunner, env: Env, inst: WorkflowInstance,
                            step: StepDefinition, ctx: Context, trace: seq<Save>, fuel: nat)
    ensures var r := ExecuteStepChain(Rounds(model, exec, env), env, inst, Some(step), ctx, trace, fuel);
            && |trace| <= |r.trace| && r.trace[..|trace|] == trace
            && (fuel > 0 ==>
                  |trace| < |r.trace| &&
                  r.trace[|trace|] == SaveStep(RunningRecord(env, inst, step, SetCurrentStepId(ctx, step.id), trace)))
  {
    var round := Rounds(model, exec, env);
    var r := ExecuteStepChain(round, env, inst, Some(step), ctx, trace, fuel);
    RoundsExtend(model, exec, env);
    ChainExtends(round, env, inst, Some(step), ctx, trace, fuel);
    if fuel > 0 {
      var saved := Saved(round(inst, step, ctx, trace));
      AttemptStepSavesRunning(model, exec, env, inst, step, ctx, trace);
      assert r.trace[|trace|] == r.trace[..|saved|][|trace|] == saved[|trace|];
    }
  }

  /** The chain started from a RUNNING instance saved after the PENDING
      one keeps both records and, with budget left, saves the RUNNING
      record of its first step next. */
  lemma RunningChainStart(model: WorkflowDefinitionModel, exec: StepRunner, env: Env, pending: WorkflowInstance,
                          first: StepDefinition, ctx: Context, fuel: nat)
    ensures var running := WithStatus(pending, Running, env.clock(1));
            var r := ExecuteStepChain(Rounds(model, exec, env), env, running, Some(first), ctx,
                                      [SaveInstance(pending)] + [SaveInstance(running)], fuel);
            && |r.trace| >= 2 && r.trace[0] == SaveInstance(pending) && r.trace[1] == SaveInstance(running)
            && (fuel > 0 ==>
                  && |r.trace| > 2 && r.trace[2].SaveStep? && r.trace[2].rec.status == Running
                  && r.trace[2].rec.workflowInstanceId == pending.id
                  && Records(r.trace[2].rec, first, env.services.render))
  {
    var running := WithStatus(pending, Running, env.clock(1));
    var trace1 := [SaveInstance(pending)] + [SaveInstance(running)];
    var r := ExecuteStepChain(Rounds(model, exec, env), env, running, Some(first), ctx, trace1, fuel);
    ChainStartsWithStep(model, exec, env, running, first, ctx, trace1, fuel);
    assert r.trace[0] == r.trace[..|trace1|][0] && r.trace[1] == r.trace[..|trace1|][1];
    RunningRecordOf(env, running, first, SetCurrentStepId(ctx, first.id), trace1);
  }

  /** `executeWorkflowSteps` for a definition with steps and variables,
      from a PENDING instance saved as the first record: the same instance
      is saved RUNNING next, and then, with any budget at all, the RUNNING
      record of the document's first step. */
  lemma WorkflowStepsStart(model: WorkflowDefinitionModel, reg: Registry, env: Env, pending: WorkflowInstance,
                           input: Option<string>, fuel: nat)
    requires pending.status == WorkflowInstances.Pending && pending.input == input
    requires model.variables.Some? && |model.steps| > 0
    ensures var r := ExecuteWorkflowSteps(model, reg, env, pending, input, [SaveInstance(pending)], fuel);
            && |r.trace| >= 2 && r.trace[0] == SaveInstance(pending)
            && r.trace[1].SaveInstance? && r.trace[1].inst.status == Running && SameRun(pending, r.trace[1].inst)
            && (fuel > 0 ==>
                  && |r.trace| > 2 && r.trace[2].SaveStep? && r.trace[2].rec.status == Running
                  && r.trace[2].rec.workflowInstanceId == pending.id
                  && Records(r.trace[2].rec, model.steps[0], env.services.render))
  {
    var trace0 := [SaveInstance(pending)];
    var ctx := SetVariable(NewContext(pending.id, model.variables.value), InputVariable, FromNullable(input));
    var first := model.steps[0];
    var running := WithStatus(pending, Running, env.clock(1));
    var exec := Dispatcher(reg, env.services);
    assert ExecuteWorkflowSteps(model, reg, env, pending, input, trace0, fuel) ==
           ExecuteStepChain(Rounds(model, exec, env), env, running, Some(first), ctx,
                            trace0 + [SaveInstance(running)], fuel);
    RunningChainStart(model, exec, env, pending, first, ctx, fuel);
  }

  /** `executeWorkflow` for a definition with steps and variables: the
      PENDING instance is saved, then the same instance RUNNING, and then,
      with any budget at all, the RUNNING record of the document's first
      step. */
  lemma StartsAtFirstStep(reg: Registry, env: Env, definition: WorkflowDefinitions.WorkflowDefinition,
                          input: Option<string>, fuel: nat)
    requires ParseWorkflow(env.load(definition.yamlContent)).Ok?
    requires var model := ParseWorkflow(env.load(definition.yamlContent)).value;
             model.variables.Some? && |model.steps| > 0
    ensures var r := ExecuteWorkflow(reg, env, definition, input, fuel);
            var model := ParseWorkflow(env.load(definition.yamlContent)).value;
            var pending := PendingInstance(env, definition, input);
            && |r.trace| >= 2 && r.trace[0] == SaveInstance(pending)
            && r.trace[1].SaveInstance? && r.trace[1].inst.status == Running && SameRun(pending, r.trace[1].inst)
            && (fuel > 0 ==>
                  && |r.trace| > 2 && r.trace[2].SaveStep? && r.trace[2].rec.status == Running
                  && r.trace[2].rec.workflowInstanceId == pending.id
                  && Records(r.trace[2].rec, model.steps[0], env.services.render))
  {
    var model := ParseWorkflow(env.load(definition.yamlContent)).value;
    var pending := PendingInstance(env, definition, input);
    assert ExecuteWorkflow(reg, env, definition, input, fuel) ==
           ExecuteWorkflowSteps(model, reg, env, pending, input, [SaveInstance(pending)], fuel);
    WorkflowStepsStart(model, reg, env, pending, input, fuel);
  }

  // ---------------------------------------------------------------------
  // Particular runs

  /** The step budget only cuts runs short: a run that ends within `fuel`
      rounds is the same run under any larger budget. */
  lemma {:induction false} MoreFuelSameRun(round: Round, env: Env, inst: WorkflowInstance,
                                           step: Option<StepDefinition>, ctx: Context, trace: seq<Save>,
                                           fuel: nat, more: nat)
    requires fuel <= more
    requires !ExecuteStepChain(round, env, inst, step, ctx, trace, fuel).outcome.OutOfFuel?
    ensures ExecuteStepChain(round, env, inst, step, ctx, trace, more) ==
            ExecuteStepChain(round, env, inst, step, ctx, trace, fuel)
    decreases fuel
  {
    if step.Some? {
      var t := round(inst, step.value, ctx, trace);
      if t.Continue? {
        MoreFuelSameRun(round, env, t.inst, Some(t.step), t.ctx, t.trace, fuel - 1, more - 1);
      }
    }
  }

  /** A definition without steps saves its PENDING instance and then the
      same instance COMPLETED, never RUNNING, with no current step. */
  lemma EmptyWorkflowCompletes(reg: Registry, env: Env, definition: WorkflowDefinitions.WorkflowDefinition,
                               input: Option<string>, fuel: nat)
    requires ParseWorkflow(env.load(definition.yamlContent)).Ok?
    requires var model := ParseWorkflow(env.load(definition.yamlContent)).value;
             model.variables.Some? && |model.steps| == 0
    ensures var r := ExecuteWorkflow(reg, env, definition, input, fuel);
            var pending := PendingInstance(env, definition, input);
            && r.outcome.Finished?
            && r.trace == [SaveInstance(pending), SaveInstance(r.outcome.instance)]
            && r.outcome.instance.status == Completed && r.outcome.instance.currentStepId == None
            && r.outcome.instance.completedAt == Some(env.clock(1)) && SameRun(pending, r.outcome.instance)
  {
  }

  /** A definition whose `variables` is null saves its PENDING instance and
      then fails with a `NullPointerException`, leaving that instance
      PENDING for good. */
  lemma NullVariablesAbort(reg: Registry, env: Env, definition: WorkflowDefinitions.WorkflowDefinition,
                           input: Option<string>, fuel: nat)
    requires ParseWorkflow(env.load(definition.yamlContent)).Ok?
    requires ParseWorkflow(env.load(definition.yamlContent)).value.variables.None?
    ensures ExecuteWorkflow(reg, env, definition, input, fuel) ==
            Run([SaveInstance(PendingInstance(env, definition, input))], Aborted(NullPointer))
  {
  }

  /** An executor that fails stops the chain: the step's RUNNING record is
      saved again as FAILED and the instance fails, both with the
      exception's message, and the instance keeps the current step it had
      before the step (none if this was the first one). */
  lemma ExecutorFailureFailsRun(model: WorkflowDefinitionModel, exec: StepRunner, env: Env, inst: WorkflowInstance,
                                step: StepDefinition, ctx: Context, trace: seq<Save>, f: Failure)
    requires exec(step, SetCurrentStepId(ctx, step.id), env.clock(|trace| + 1)) == Raised(f)
    ensures var t := AttemptStep(model, exec, env, inst, step, ctx, trace);
            var message := Some(f.Message());
            && t.Stop? && t.run.outcome.Finished?
            && |t.run.trace| == |trace| + 3 && t.run.trace[..|trace|] == trace
            && t.run.trace[|trace|].SaveStep? && t.run.trace[|trace|].rec.status == Running
            && t.run.trace[|trace| + 1].SaveStep? && t.run.trace[|trace| + 1].rec.status == Failed
            && t.run.trace[|trace| + 1].rec.errorMessage == message
            && t.run.trace[|trace| + 2] == SaveInstance(t.run.outcome.instance)
            && t.run.outcome.instance.status == Failed && t.run.outcome.instance.errorMessage == message
            && t.run.outcome.instance.currentStepId == inst.currentStepId
  {
    var ctx1 := SetCurrentStepId(ctx, step.id);
    var running := RunningRecord(env, inst, step, ctx1, trace);
    var trace1 := trace + [SaveStep(running)];
    var r := Fail(env, inst, running, f, trace1);
    assert AttemptStep(model, exec, env, inst, step, ctx, trace) == Stop(r);
    assert r.trace[..|trace1|] == trace1;
    assert r.trace[|trace|] == trace1[|trace|];
    assert r.trace[..|trace|] == trace1[..|trace|] == trace;
  }

  /** A step that succeeds and names no next step completes the run: after
      its COMPLETED record and the instance pointing at it, the instance is
      saved COMPLETED, still pointing at that step. */
  lemma LastStepCompletes(model: WorkflowDefinitionModel, exec: StepRunner, env: Env, inst: WorkflowInstance,
                          step: StepDefinition, ctx: Context, trace: seq<Save>)
    requires step.stepType.Some?
    requires var o := exec(step, SetCurrentStepId(ctx, step.id), env.clock(|trace| + 1));
             o.Produced? && NextStep(step, o.ctx.conditionResult) == None
    ensures var t := AttemptStep(model, exec, env, inst, step, ctx, trace);
            && t.Stop? && t.run.outcome.Finished? && |t.run.trace| == |trace| + 4
            && t.run.trace[|trace| + 1].SaveStep? && t.run.trace[|trace| + 1].rec.status == Completed
            && t.run.trace[|trace| + 2].SaveInstance? && t.run.trace[|trace| + 2].inst.currentStepId == step.id
            && t.run.trace[|trace| + 3] == SaveInstance(t.run.outcome.instance)
            && t.run.outcome.instance.status == Completed && t.run.outcome.instance.currentStepId == step.id
            && SameRun(inst, t.run.outcome.instance)
  {
    var ctx1 := SetCurrentStepId(ctx, step.id);
    var running := RunningRecord(env, inst, step, ctx1, trace);
    var trace1 := trace + [SaveStep(running)];
    var o := exec(step, ctx1, env.clock(|trace1|));
    var completed := Steps.WithResult(running, Some(Show(o.value, env.services.render)), env.clock(|trace1|));
    var trace2 := trace1 + [SaveStep(completed)];
    var updated := WithCurrentStep(inst, step.id, env.clock(|trace2|));
    var trace3 := trace2 + [SaveInstance(updated)];
    assert AttemptStep(model, exec, env, inst, step, ctx, trace) ==
           Advance(model, env, inst, step, running, updated, SetLastResult(o.ctx, o.value), trace3);
    var r := Complete(env, updated, trace3);
    assert r.trace[|trace| + 1] == trace3[|trace| + 1] == SaveStep(completed);
    assert r.trace[|trace| + 2] == trace3[|trace| + 2] == SaveInstance(updated);
  }

  /** A step that succeeds and names a next step the definition has goes on
      to that step: the step's result is the context's last result and its
      "result" variable, and the instance, still RUNNING, points at the step
      just finished. For a step other than a condition the next step is its
      `next`. */
  lemma StepContinuesAtNext(model: WorkflowDefinitionModel, exec: StepRunner, env: Env, inst: WorkflowInstance,
                            step: StepDefinition, ctx: Context, trace: seq<Save>, nextId: string)
    requires step.stepType.Some?
    requires var o := exec(step, SetCurrentStepId(ctx, step.id), env.clock(|trace| + 1));
             o.Produced? && NextStep(step, o.ctx.conditionResult) == Some(nextId)
    requires FindStep(model, nextId).Ok?
    ensures var t := AttemptStep(model, exec, env, inst, step, ctx, trace);
            var o := exec(step, SetCurrentStepId(ctx, step.id), env.clock(|trace| + 1));
            && t.Continue? && t.step == FindStep(model, nextId).value && t.step.id == Some(nextId)
            && t.ctx == SetLastResult(o.ctx, o.value)
            && t.ctx.lastResult == o.value && GetVariable(t.ctx, ResultVariable) == o.value
            && t.inst.currentStepId == step.id && t.inst.status == inst.status && SameRun(inst, t.inst)
            && |t.trace| == |trace| + 3 && t.trace[..|trace|] == trace
            && t.trace[|trace| + 1].SaveStep? && t.trace[|trace| + 1].rec.status == Completed
            && t.trace[|trace| + 1].rec.output == Some(Show(o.value, env.services.render))
            && t.trace[|trace| + 2] == SaveInstance(t.inst)
  {
    var ctx1 := SetCurrentStepId(ctx, step.id);
    var running := RunningRecord(env, inst, step, ctx1, trace);
    var trace1 := trace + [SaveStep(running)];
    var o := exec(step, ctx1, env.clock(|trace1|));
    var completed := Steps.WithResult(running, Some(Show(o.value, env.services.render)), env.clock(|trace1|));
    var trace2 := trace1 + [SaveStep(completed)];
    var updated := WithCurrentStep(inst, step.id, env.clock(|trace2|));
    var trace3 := trace2 + [SaveInstance(updated)];
    assert AttemptStep(model, exec, env, inst, step, ctx, trace) ==
           Advance(model, env, inst, step, running, updated, SetLastResult(o.ctx, o.value), trace3);
    assert trace3[..|trace|] == trace;
    assert trace3[|trace| + 1] == SaveStep(completed);
  }

  /** A step whose type has no executor fails the run: its RUNNING record is
      saved again as FAILED and the instance fails, both with "Failed to
      execute step: " and the step's id. */
  lemma UnknownStepFailsRun(model: WorkflowDefinitionModel, reg: Registry, env: Env, inst: WorkflowInstance,
                            step: StepDefinition, ctx: Context, trace: seq<Save>)
    requires step.stepType.None? || step.stepType.value !in SupportedStepTypes(reg)
    ensures var t := AttemptStep(model, Dispatcher(reg, env.services), env, inst, step, ctx, trace);
            var message := Some("Failed to execute step: " + Nullable(step.id));
            && t.Stop? && t.run.outcome.Finished?
            && |t.run.trace| == |trace| + 3 && t.run.trace[..|trace|] == trace
            && t.run.trace[|trace|].SaveStep? && t.run.trace[|trace|].rec.status == Running
            && t.run.trace[|trace| + 1].SaveStep? && t.run.trace[|trace| + 1].rec.status == Failed
            && t.run.trace[|trace| + 1].rec.errorMessage == message
            && t.run.outcome.instance.status == Failed && t.run.outcome.instance.errorMessage == message
  {
    var exec := Dispatcher(reg, env.services);
    var ctx1 := SetCurrentStepId(ctx, step.id);
    var now := env.clock(|trace| + 1);
    StepDispatch.UnknownTypeFails(reg, env.services, step, ctx1, now);
    assert exec(step, ctx1, now) == StepDispatch.Execute(reg, env.services, step, ctx1, now);
    ExecutorFailureFailsRun(model, exec, env, inst, step, ctx, trace, StepDispatch.ExecutionFailure(step));
  }

  /** A condition step whose execution succeeds continues at the step the
      flag it set selects, carrying the flag; the instance's current step
      is then the condition step itself, the step just finished. */
  lemma ConditionStepBranches(model: WorkflowDefinitionModel, exec: StepRunner, env: Env, inst: WorkflowInstance,
                              step: StepDefinition, ctx: Context, trace: seq<Save>, target: string)
    requires step.stepType == Some(ConditionType)
    requires var o := exec(step, SetCurrentStepId(ctx, step.id), env.clock(|trace| + 1));
             && o.Produced?
             && (if o.ctx.conditionResult then step.onTrue else step.onFalse) == Some(target)
    requires FindStep(model, target).Ok?
    ensures var t := AttemptStep(model, exec, env, inst, step, ctx, trace);
            var o := exec(step, SetCurrentStepId(ctx, step.id), env.clock(|trace| + 1));
            && t.Continue? && t.step == FindStep(model, target).value
            && t.ctx.conditionResult == o.ctx.conditionResult
            && t.inst.currentStepId == step.id && |t.trace| == |trace| + 3
  {
  }

  /** With the registry's condition executor: a condition step whose
      expression evaluates continues at `onTrue` when it evaluated to true
      and at `onFalse` otherwise, a null result included. */
  lemma ConditionBranchTaken(model: WorkflowDefinitionModel, reg: Registry, env: Env, inst: WorkflowInstance,
                             step: StepDefinition, ctx: Context, trace: seq<Save>, e: string, target: string)
    requires GetExecutor(reg, Some(ConditionType)) == Ok(ConditionStep)
    requires step.stepType == Some(ConditionType)
    requires ConfigString(step, ConditionExecutor.ExpressionKey) == Ok(Some(e)) && e != ""
    requires env.services.evaluate(e, ctx.variables).Evaluated?
    requires var flag := ConditionExecutor.Holds(env.services.evaluate(e, ctx.variables));
             (if flag then step.onTrue else step.onFalse) == Some(target)
    requires FindStep(model, target).Ok?
    ensures var t := AttemptStep(model, Dispatcher(reg, env.services), env, inst, step, ctx, trace);
            && t.Continue? && t.step == FindStep(model, target).value
            && t.ctx.conditionResult == ConditionExecutor.Holds(env.services.evaluate(e, ctx.variables))
  {
    var exec := Dispatcher(reg, env.services);
    var ctx1 := SetCurrentStepId(ctx, step.id);
    var now := env.clock(|trace| + 1);
    StepDispatch.ConditionStepSetsFlag(reg, env.services, step, ctx1, now, e);
    assert exec(step, ctx1, now) == StepDispatch.Execute(reg, env.services, step, ctx1, now);
    ConditionStepBranches(model, exec, env, inst, step, ctx, trace, target);
  }

  /** A next step the definition does not have fails the run from the
      instance as it was before the step: the step's COMPLETED record and
      the instance pointing at the step are saved first, then the step's
      RUNNING snapshot is saved again as FAILED, without the output, and the
      instance fails with "Step not found: <id>" still naming the previous
      step. */
  lemma MissingNextStepFails(model: WorkflowDefinitionModel, exec: StepRunner, env: Env, inst: WorkflowInstance,
                             step: StepDefinition, ctx: Context, trace: seq<Save>, nextId: string)
    requires step.stepType.Some?
    requires var o := exec(step, SetCurrentStepId(ctx, step.id), env.clock(|trace| + 1));
             o.Produced? && NextStep(step, o.ctx.conditionResult) == Some(nextId)
    requires FindStep(model, nextId) == Err(StepNotFound(nextId))
    ensures var t := AttemptStep(model, exec, env, inst, step, ctx, trace);
            && t.Stop? && t.run.outcome.Finished? && |t.run.trace| == |trace| + 5
            && t.run.trace[|trace| + 1].SaveStep? && t.run.trace[|trace| + 1].rec.status == Completed
            && t.run.trace[|trace| + 1].rec.output.Some?
            && t.run.trace[|trace| + 2].SaveInstance? && t.run.trace[|trace| + 2].inst.currentStepId == step.id
            && t.run.trace[|trace| + 3].SaveStep? && t.run.trace[|trace| + 3].rec.status == Failed
            && t.run.trace[|trace| + 3].rec.output == None
            && t.run.outcome.instance.status == Failed
            && t.run.outcome.instance.errorMessage == Some("Step not found: " + nextId)
            && t.run.outcome.instance.currentStepId == inst.currentStepId
  {
    var ctx1 := SetCurrentStepId(ctx, step.id);
    var running := RunningRecord(env, inst, step, ctx1, trace);
    var trace1 := trace + [SaveStep(running)];
    var o := exec(step, ctx1, env.clock(|trace1|));
    var completed := Steps.WithResult(running, Some(Show(o.value, env.services.render)), env.clock(|trace1|));
    var trace2 := trace1 + [SaveStep(completed)];
    var updated := WithCurrentStep(inst, step.id, env.clock(|trace2|));
    var trace3 := trace2 + [SaveInstance(updated)];
    assert AttemptStep(model, exec, env, inst, step, ctx, trace) ==
           Advance(model, env, inst, step, running, updated, SetLastResult(o.ctx, o.value), trace3);
    var r := Fail(env, inst, running, StepNotFound(nextId), trace3);
    assert r.trace[..|trace3|] == trace3;
    assert r.trace[|trace| + 1] == trace3[|trace| + 1] == SaveStep(completed);
    assert r.trace[|trace| + 2] == trace3[|trace| + 2] == SaveInstance(updated);
  }
}

=== FILE: workflow_instance.dfy ===
/** `WorkflowInstance`: the stored record of one run of a workflow. Records
    are immutable; each `with...` builds the next version. The clock reading
    a version is stamped with is a parameter, and so is the random id. */
module WorkflowInstances {
  import opened Base

  type Timestamp = int

  const Pending := "PENDING"
  const Running := "RUNNING"
  const Completed := "COMPLETED"
  const Failed := "FAILED"
  const Cancelled := "CANCELLED"

  /** The statuses that stamp `completedAt`. */
  predicate IsTerminal(status: string) {
    status == Completed || status == Failed
  }

  datatype WorkflowInstance = WorkflowInstance(
    id: string,
    workflowDefinitionId: string,
    status: string,
    currentStepId: Option<string>,
    input: Option<string>,
    output: Option<string>,
    errorMessage: Option<string>,
    startedAt: Timestamp,
    completedAt: Option<Timestamp>,
    updatedAt: Timestamp)

  /** The fields no update changes. */
  predicate SameRun(a: WorkflowInstance, b: WorkflowInstance) {
    a.id == b.id && a.workflowDefinitionId == b.workflowDefinitionId && a.input == b.input &&
    a.startedAt == b.startedAt
  }

  /** A finished record carries its completion time. */
  predicate Stamped(inst: WorkflowInstance) {
    IsTerminal(inst.status) ==> inst.completedAt.Some?
  }

  /** `create(definitionId, input)`: a PENDING record started and updated
      at `now`, with no step, output, error or completion time. */
  function Create(id: string, workflowDefinitionId: string, input: Option<string>, now: Timestamp): (r: WorkflowInstance)
    ensures r.id == id && r.workflowDefinitionId == workflowDefinitionId && r.input == input
    ensures r.status == Pending && r.currentStepId == None && r.output == None && r.errorMessage == None
    ensures r.startedAt == now && r.updatedAt == now && r.completedAt == None
    ensures Stamped(r)
  {
    WorkflowInstance(id, workflowDefinitionId, Pending, None, input, None, None, now, None, now)
  }

  /** `withStatus(status)`: a COMPLETED or FAILED status stamps the
      completion time, any other keeps it. */
  function WithStatus(inst: WorkflowInstance, status: string, now: Timestamp): (r: WorkflowInstance)
    ensures SameRun(inst, r) && r.status == status && r.updatedAt == now
    ensures r.completedAt == if IsTerminal(status) then Some(now) else inst.completedAt
    ensures r.currentStepId == inst.currentStepId && r.output == inst.output && r.errorMessage == inst.errorMessage
    ensures Stamped(inst) ==> Stamped(r)
  {
    inst.(status := status, completedAt := if IsTerminal(status) then Some(now) else inst.completedAt,
          updatedAt := now)
  }

  /** `withCurrentStep(stepId)`: only the current step and the update time change. */
  function WithCurrentStep(inst: WorkflowInstance, stepId: Option<string>, now: Timestamp): (r: WorkflowInstance)
    ensures SameRun(inst, r) && r.currentStepId == stepId && r.updatedAt == now
    ensures r == inst.(currentStepId := stepId, updatedAt := now)
  {
    inst.(currentStepId := stepId, updatedAt := now)
  }

  /** `withOutput(output)`: only the output and the update time change. */
  function WithOutput(inst: WorkflowInstance, output: Option<string>, now: Timestamp): (r: WorkflowInstance)
    ensures SameRun(inst, r) && r.output == output && r.updatedAt == now
    ensures r == inst.(output := output, updatedAt := now)
  {
    inst.(output := output, updatedAt := now)
  }

  /** `withError(error)`: the record fails with the message, completed now. */
  function WithError(inst: WorkflowInstance, error: Option<string>, now: Timestamp): (r: WorkflowInstance)
    ensures SameRun(inst, r) && r.status == Failed && r.errorMessage == error
    ensures r.completedAt == Some(now) && r.updatedAt == now
    ensures r.currentStepId == inst.currentStepId && r.output == inst.output
    ensures Stamped(r)
  {
    inst.(status := Failed, errorMessage := error, completedAt := Some(now), updatedAt := now)
  }

  /** One call of a `with...` method, with the clock reading it takes. */
  datatype Update =
    | SetStatus(status: string, at: Timestamp)
    | SetCurrentStep(stepId: Option<string>, at: Timestamp)
    | SetOutput(output: Option<string>, at: Timestamp)
    | SetError(error: Option<string>, at: Timestamp)

  function Apply(inst: WorkflowInstance, u: Update): WorkflowInstance {
    match u
    case SetStatus(s, t) => WithStatus(inst, s, t)
    case SetCurrentStep(s, t) => WithCurrentStep(inst, s, t)
    case SetOutput(o, t) => WithOutput(inst, o, t)
    case SetError(e, t) => WithError(inst, e, t)
  }

  function ApplyAll(inst: WorkflowInstance, updates: seq<Update>): WorkflowInstance
    decreases |updates|
  {
    if |updates| == 0 then inst else ApplyAll(Apply(inst, updates[0]), updates[1..])
  }

  /** Any sequence of updates keeps the run's identity, its input and start
      time, and never leaves a finished record without a completion time. */
  lemma {:induction false} UpdatesKeepRun(inst: WorkflowInstance, updates: seq<Update>)
    requires Stamped(inst)
    ensures SameRun(inst, ApplyAll(inst, updates))
    ensures Stamped(ApplyAll(inst, updates))
    decreases |updates|
  {
    if |updates| > 0 {
      UpdatesKeepRun(Apply(inst, updates[0]), updates[1..]);
    }
  }

  /** Step and output updates never touch the status, the error or the
      completion time: a failed record stays failed with its message. */
  lemma {:induction false} StatusSticks(inst: WorkflowInstance, updates: seq<Update>)
    requires forall i :: 0 <= i < |updates| ==> updates[i].SetCurrentStep? || updates[i].SetOutput?
    ensures var r := ApplyAll(inst, updates);
            r.status == inst.status && r.errorMessage == inst.errorMessage && r.completedAt == inst.completedAt
    decreases |updates|
  {
    if |updates| > 0 {
      StatusSticks(Apply(inst, updates[0]), updates[1..]);
    }
  }
}

=== FILE: workflow_step.dfy ===
/** `WorkflowStep`: the stored record of one execution of one step. As with
    instances, every `with...` builds the next version, stamped with a clock
    reading given as a parameter. */
module WorkflowSteps {
  import opened Base
  import opened StepDefinitions
  import opened WorkflowInstances

  const Skipped := "SKIPPED"
  const DefaultMaxRetries := 3

  /** A Java `int`. */
  type Int32 = x: int | IntMin <= x <= IntMax

  /** `x + 1` on a Java `int`: the largest value wraps to the smallest. */
  function Increment(x: Int32): (r: Int32)
    ensures x < IntMax ==> r == x + 1
    ensures x == IntMax ==> r == IntMin
    ensures (r - x) % 0x1_0000_0000 == 1
  {
    if x == IntMax then IntMin else x + 1
  }

  datatype WorkflowStep = WorkflowStep(
    id: string,
    workflowInstanceId: string,
    stepId: Option<string>,
    stepType: Option<string>,
    stepConfig: Option<string>,
    status: string,
    input: Option<string>,
    output: Option<string>,
    errorMessage: Option<string>,
    startedAt: Option<Timestamp>,
    completedAt: Option<Timestamp>,
    retryCount: Int32,
    maxRetries: Int32)

  /** The fields no update changes: which step of which run this records. */
  predicate SameStep(a: WorkflowStep, b: WorkflowStep) {
    a.id == b.id && a.workflowInstanceId == b.workflowInstanceId && a.stepId == b.stepId &&
    a.stepType == b.stepType && a.stepConfig == b.stepConfig && a.input == b.input &&
    a.maxRetries == b.maxRetries
  }

  /** A running record carries its start time, a finished one its
      completion time. */
  predicate StepStamped(s: WorkflowStep) {
    (s.status == Running ==> s.startedAt.Some?) && (IsTerminal(s.status) ==> s.completedAt.Some?)
  }

  /** `create(...)`: a PENDING record with no output, error or times, no
      retries yet and at most three. */
  function Create(id: string, workflowInstanceId: string, stepId: Option<string>, stepType: Option<string>,
                  stepConfig: Option<string>, input: Option<string>): (r: WorkflowStep)
    ensures r.id == id && r.workflowInstanceId == workflowInstanceId && r.stepId == stepId
    ensures r.stepType == stepType && r.stepConfig == stepConfig && r.input == input
    ensures r.status == Pending && r.output == None && r.errorMessage == None
    ensures r.startedAt == None && r.completedAt == None
    ensures r.retryCount == 0 && r.maxRetries == DefaultMaxRetries
    ensures StepStamped(r)
  {
    WorkflowStep(id, workflowInstanceId, stepId, stepType, stepConfig, Pending, input, None, None,
                 None, None, 0, DefaultMaxRetries)
  }

  /** `withStatus(status)`: RUNNING stamps the start time; COMPLETED and
      FAILED stamp the completion time. */
  function WithStatus(s: WorkflowStep, status: string, now: Timestamp): (r: WorkflowStep)
    ensures SameStep(s, r) && r.status == status
    ensures r.startedAt == if status == Running then Some(now) else s.startedAt
    ensures r.completedAt == if IsTerminal(status) then Some(now) else s.completedAt
    ensures r.output == s.output && r.errorMessage == s.errorMessage && r.retryCount == s.retryCount
    ensures StepStamped(s) ==> StepStamped(r)
  {
    s.(status := status,
       startedAt := if status == Running then Some(now) else s.startedAt,
       completedAt := if IsTerminal(status) then Some(now) else s.completedAt)
  }

  /** `withResult(result)`: COMPLETED with the result as output. */
  function WithResult(s: WorkflowStep, result: Option<string>, now: Timestamp): (r: WorkflowStep)
    ensures SameStep(s, r) && r.status == Completed && r.output == result
    ensures r.completedAt == Some(now) && r.startedAt == s.startedAt
    ensures r.errorMessage == s.errorMessage && r.retryCount == s.retryCount
    ensures StepStamped(r)
  {
    s.(status := Completed, output := result, completedAt := Some(now))
  }

  /** `withError(error)`: FAILED with the message; the output is kept. */
  function WithError(s: WorkflowStep, error: Option<string>, now: Timestamp): (r: WorkflowStep)
    ensures SameStep(s, r) && r.status == Failed && r.errorMessage == error
    ensures r.completedAt == Some(now) && r.startedAt == s.startedAt
    ensures r.output == s.output && r.retryCount == s.retryCount
    ensures StepStamped(r)
  {
    s.(status := Failed, errorMessage := error, completedAt := Some(now))
  }

  /** `withRetry()`: back to PENDING with output, error and times cleared,
      one more retry counted (with `int` wrap-around). */
  function WithRetry(s: WorkflowStep): (r: WorkflowStep)
    ensures SameStep(s, r) && r.status == Pending
    ensures r.output == None && r.errorMessage == None && r.startedAt == None && r.completedAt == None
    ensures r.retryCount == Increment(s.retryCount)
    ensures StepStamped(r)
  {
    s.(status := Pending, output := None, errorMessage := None, startedAt := None, completedAt := None,
       retryCount := Increment(s.retryCount))
  }

  /** Retrying a fresh record `n` times counts `n` retries, as long as `n`
      fits in an `int`. */
  lemma {:induction false} RetriesCount(s: WorkflowStep, n: nat)
    requires s.retryCount == 0 && n <= IntMax
    ensures Retried(s, n).retryCount == n
    ensures SameStep(s, Retried(s, n))
    decreases n
  {
    if n > 0 {
      RetriesCount(s, n - 1);
    }
  }

  function Retried(s: WorkflowStep, n: nat): WorkflowStep
    decreases n
  {
    if n == 0 then s else WithRetry(Retried(s, n - 1))
  }

  /** One more retry than `int` holds wraps the count to the smallest `int`. */
  lemma RetryCountWraps(s: WorkflowStep)
    requires s.retryCount == 0
    ensures Retried(s, IntMax + 1).retryCount == IntMin
  {
    RetriesCount(s, IntMax);
  }
}

=== FILE: yaml_parser.dfy ===
/** `WorkflowYamlParser`: from a loaded YAML tree to a `WorkflowDefinitionModel`.
    Turning text into a tree is the YAML library's job; it is represented by
    `LoadResult`, whose failure case stands for any exception it raises. */
module YamlParser {
  import opened Base
  import opened Text
  import opened StepDefinitions
  import opened DefinitionModels

  datatype LoadResult = Loaded(root: Value) | LoadFailed(cause: Failure)

  const DefaultVersion := "1.0.0"
  const ParseErrorPrefix := "Invalid workflow YAML: "

  /** The keys that steer control flow and are kept out of a step's config. */
  const ControlKeys: set<string> := {"id", "type", "next", "onTrue", "onFalse"}

  /** `(String) value`: null stays null, anything but a string fails. */
  function CastString(v: Value): (r: Result<Option<string>>)
    ensures r.Ok? <==> v.Null? || v.Str?
    ensures r.Ok? ==> FromNullable(r.value) == v
    ensures r.Err? ==> r.failure == ClassCast
  {
    match v
    case Null => Ok(None)
    case Str(s) => Ok(Some(s))
    case _ => Err(ClassCast)
  }

  /** `(Map<String, Object>) value`. */
  function CastMap(v: Value): (r: Result<Option<map<string, Value>>>)
    ensures r.Ok? <==> v.Null? || v.Dict?
    ensures r == Ok(None) <==> v.Null?
    ensures r.Ok? && r.value.Some? ==> v == Dict(r.value.value)
  {
    match v
    case Null => Ok(None)
    case Dict(m) => Ok(Some(m))
    case _ => Err(ClassCast)
  }

  /** The entries that `Collectors.toMap` would reject: it throws on a null value. */
  predicate HasNullConfigValue(d: map<string, Value>) {
    exists k :: k in d && k !in ControlKeys && d[k] == Null
  }

  /** `parseStep`: the control keys are cast to strings, in the order id,
      type, next, onTrue, onFalse (absent ones become null, nothing is
      required); every other entry is copied into the config. */
  function ParseStep(v: Value): (r: Result<StepDefinition>)
    ensures r.Ok? ==> v.Dict?
    ensures r.Ok? ==> FromNullable(r.value.id) == Get(v.entries, "id")
    ensures r.Ok? ==> FromNullable(r.value.stepType) == Get(v.entries, "type")
    ensures r.Ok? ==> FromNullable(r.value.next) == Get(v.entries, "next")
    ensures r.Ok? ==> FromNullable(r.value.onTrue) == Get(v.entries, "onTrue")
    ensures r.Ok? ==> FromNullable(r.value.onFalse) == Get(v.entries, "onFalse")
    ensures r.Ok? ==> r.value.config.Keys == v.entries.Keys - ControlKeys
    ensures r.Ok? ==> forall k :: k in r.value.config ==> r.value.config[k] == v.entries[k]
    ensures r.Ok? ==> forall k :: k in r.value.config ==> r.value.config[k] != Null
    ensures v.Dict? && HasNullConfigValue(v.entries) ==> r.Err?
    ensures (v.Dict? && (forall k :: k in ControlKeys ==> CastString(Get(v.entries, k)).Ok?) &&
             !HasNullConfigValue(v.entries)) ==> r.Ok?
    ensures v.Null? ==> r == Err(NullPointer)
    ensures !v.Dict? && !v.Null? ==> r == Err(ClassCast)
    ensures r.Err? ==> r.failure == NullPointer || r.failure == ClassCast
  {
    match v
    case Null => Err(NullPointer)
    case Dict(d) =>
      var id :- CastString(Get(d, "id"));
      var stepType :- CastString(Get(d, "type"));
      var next :- CastString(Get(d, "next"));
      var onTrue :- CastString(Get(d, "onTrue"));
      var onFalse :- CastString(Get(d, "onFalse"));
      if HasNullConfigValue(d) then Err(NullPointer)
      else
        var config := map k | k in d && k !in ControlKeys :: d[k];
        Ok(StepDefinition(id, stepType, config, next, onTrue, onFalse))
    case _ => Err(ClassCast)
  }

  /** The step list, parsed entry by entry in document order; the first
      entry that fails makes the whole list fail with its exception. */
  function ParseSteps(items: seq<Value>): (r: Result<seq<StepDefinition>>)
    ensures r.Ok? ==> |r.value| == |items|
    ensures r.Ok? ==> forall i :: 0 <= i < |items| ==> ParseStep(items[i]) == Ok(r.value[i])
    ensures r.Err? ==> exists i :: && 0 <= i < |items| && ParseStep(items[i]) == Err(r.failure)
                                   && forall j :: 0 <= j < i ==> ParseStep(items[j]).Ok?
    ensures r.Err? <==> exists i :: 0 <= i < |items| && ParseStep(items[i]).Err?
    decreases |items|
  {
    if |items| == 0 then Ok([])
    else
      var first :- ParseStep(items[0]);
      match ParseSteps(items[1..])
      case Err(f) =>
        FirstFailureInTail(items, f);
        Err(f)
      case Ok(rest) =>
        assert forall i :: 1 <= i < |items| ==> items[i] == items[1..][i - 1];
        Ok([first] + rest)
  }

  /** The first failing entry of the tail, one further along, is the first
      failing entry of a list whose head parses. */
  lemma FirstFailureInTail(items: seq<Value>, f: Failure)
    requires |items| > 0 && ParseStep(items[0]).Ok?
    requires exists i :: && 0 <= i < |items| - 1 && ParseStep(items[1..][i]) == Err(f)
                         && forall j :: 0 <= j < i ==> ParseStep(items[1..][j]).Ok?
    ensures exists i :: && 0 <= i < |items| && ParseStep(items[i]) == Err(f)
                        && forall j :: 0 <= j < i ==> ParseStep(items[j]).Ok?
  {
    var i :| && 0 <= i < |items| - 1 && ParseStep(items[1..][i]) == Err(f)
              && forall j :: 0 <= j < i ==> ParseStep(items[1..][j]).Ok?;
    assert items[i + 1] == items[1..][i];
    forall j | 0 < j < i + 1
      ensures ParseStep(items[j]).Ok?
    {
      assert items[j] == items[1..][j - 1];
    }
  }

  /** The model read from a loaded tree; every failure is the underlying
      exception, before it is wrapped. */
  function ParseTree(doc: LoadResult): (r: Result<WorkflowDefinitionModel>)
    ensures r.Ok? ==> doc.Loaded? && doc.root.Dict?
    ensures r.Ok? ==> FromNullable(r.value.name) == Get(doc.root.entries, "name")
    ensures r.Ok? && "version" !in doc.root.entries ==> r.value.version == Some(DefaultVersion)
    ensures r.Ok? && "version" in doc.root.entries ==>
              FromNullable(r.value.version) == doc.root.entries["version"]
    ensures r.Ok? && "variables" !in doc.root.entries ==> r.value.variables == Some(map[])
    ensures r.Ok? && "variables" in doc.root.entries && r.value.variables.Some? ==>
              doc.root.entries["variables"] == Dict(r.value.variables.value)
    ensures r.Ok? && "variables" in doc.root.entries ==>
              CastMap(doc.root.entries["variables"]) == Ok(r.value.variables)
    ensures r.Ok? ==> Get(doc.root.entries, "steps").List?
    ensures r.Ok? ==> ParseSteps(Get(doc.root.entries, "steps").items) == Ok(r.value.steps)
    ensures doc.Loaded? && doc.root.Dict? && Get(doc.root.entries, "steps") == Null ==> r.Err?
    ensures r.Ok? <==>
              && doc.Loaded? && doc.root.Dict?
              && CastString(Get(doc.root.entries, "name")).Ok?
              && ("version" in doc.root.entries ==> CastString(doc.root.entries["version"]).Ok?)
              && ("variables" in doc.root.entries ==> CastMap(doc.root.entries["variables"]).Ok?)
              && Get(doc.root.entries, "steps").List?
              && ParseSteps(Get(doc.root.entries, "steps").items).Ok?
    ensures doc.LoadFailed? ==> r == Err(doc.cause)
  {
    match doc
    case LoadFailed(cause) => Err(cause)
    case Loaded(Null) => Err(NullPointer)
    case Loaded(Dict(m)) =>
      var name :- CastString(Get(m, "name"));
      var version :- if "version" in m then CastString(m["version"]) else Ok(Some(DefaultVersion));
      var variables :- if "variables" in m then CastMap(m["variables"]) else Ok(Some(map[]));
      (match Get(m, "steps")
       case Null => Err(NullPointer)
       case List(items) =>
         var steps :- ParseSteps(items);
         Ok(WorkflowDefinitionModel(name, version, steps, variables))
       case _ => Err(ClassCast))
    case Loaded(_) => Err(ClassCast)
  }

  /** `parseWorkflow`: any exception on the way surfaces as an
      `IllegalArgumentException` whose message starts "Invalid workflow YAML: ". */
  function ParseWorkflow(doc: LoadResult): (r: Result<WorkflowDefinitionModel>)
    ensures r.Ok? <==> ParseTree(doc).Ok?
    ensures r.Ok? ==> r.value == ParseTree(doc).value
    ensures r.Err? ==> r.failure.IllegalArgument? && IsPrefix(ParseErrorPrefix, r.failure.message)
    ensures r.Err? ==> r.failure.message == ParseErrorPrefix + ParseTree(doc).failure.Message()
    ensures doc.LoadFailed? ==> r.Err?
  {
    match ParseTree(doc)
    case Ok(model) => Ok(model)
    case Err(e) => Err(IllegalArgument(ParseErrorPrefix + e.Message()))
  }

  /** The conditional step of the parser's own example document. */
  function ConditionalStepDocument(): Value {
    Dict(map["id" := Str("condition-step"), "type" := Str("condition"),
             "expression" := Str("#{result.status == 200}"),
             "onTrue" := Str("success-step"), "onFalse" := Str("error-step")])
  }

  lemma ConditionalStepEntries()
    ensures var d := ConditionalStepDocument().entries;
            && Get(d, "id") == Str("condition-step") && Get(d, "type") == Str("condition")
            && Get(d, "next") == Null
            && Get(d, "onTrue") == Str("success-step") && Get(d, "onFalse") == Str("error-step")
            && !HasNullConfigValue(d)
  {
    assert |"id"| == 2 && |"type"| == 4 && |"next"| == 4 && |"onTrue"| == 6 && |"onFalse"| == 7;
    assert |"expression"| == 10 && "type"[0] != "next"[0] && "onTrue"[2] != "onFalse"[2];
  }

  lemma ConditionalStepConfig()
    ensures var d := ConditionalStepDocument().entries;
            (map k | k in d && k !in ControlKeys :: d[k]) == map["expression" := Str("#{result.status == 200}")]
  {
    assert |"id"| == 2 && |"type"| == 4 && |"onTrue"| == 6 && |"onFalse"| == 7 && |"expression"| == 10;
  }

  /** Its fields land in the step definition, and only the expression is
      config. */
  lemma ConditionalStepParses()
    ensures ParseStep(ConditionalStepDocument()) ==
            Ok(StepDefinition(Some("condition-step"), Some("condition"),
                              map["expression" := Str("#{result.status == 200}")],
                              None, Some("success-step"), Some("error-step")))
  {
    ConditionalStepEntries();
    ConditionalStepConfig();
  }

  /** A document with a name and steps but neither version nor variables
      parses, with version "1.0.0" and no variables. */
  lemma ConditionalDocumentParses()
    ensures var doc := Loaded(Dict(map["name" := Str("conditional-workflow"),
                                       "steps" := List([ConditionalStepDocument()])]));
            var r := ParseWorkflow(doc);
            && r.Ok? && r.value.name == Some("conditional-workflow")
            && r.value.version == Some(DefaultVersion) && r.value.variables == Some(map[])
            && r.value.steps == [ParseStep(ConditionalStepDocument()).value]
  {
    ConditionalStepParses();
    var items := [ConditionalStepDocument()];
    assert ParseSteps(items[1..]) == Ok([]) by { assert items[1..] == []; }
    ParseStepsCons(items);
    ConditionalDocumentEntries(items);
  }

  lemma ConditionalDocumentEntries(items: seq<Value>)
    ensures var m := map["name" := Str("conditional-workflow"), "steps" := List(items)];
            && "version" !in m && "variables" !in m
            && Get(m, "name") == Str("conditional-workflow") && Get(m, "steps") == List(items)
  {
    assert |"name"| == 4 && |"version"| == 7 && |"variables"| == 9 && |"steps"| == 5;
  }

  // ---------------------------------------------------------------------
  // The inverse direction: a document for a model.

  /** A step definition that a document can describe: its config has no
      null value and no key the parser treats as control flow. */
  predicate Describable(step: StepDefinition) {
    && (forall k :: k in step.config ==> step.config[k] != Null)
    && step.config.Keys !! ControlKeys
  }

  function UnparseStep(step: StepDefinition): Value {
    Dict(step.config + map[
      "id" := FromNullable(step.id),
      "type" := FromNullable(step.stepType),
      "next" := FromNullable(step.next),
      "onTrue" := FromNullable(step.onTrue),
      "onFalse" := FromNullable(step.onFalse)])
  }

  function Unparse(model: WorkflowDefinitionModel): Value {
    Dict(map[
      "name" := FromNullable(model.name),
      "version" := FromNullable(model.version),
      "variables" := UnparseVariables(model.variables),
      "steps" := List(UnparseSteps(model.steps))])
  }

  function UnparseVariables(variables: Option<map<string, Value>>): Value {
    match variables
    case None => Null
    case Some(vs) => Dict(vs)
  }

  function UnparseSteps(steps: seq<StepDefinition>): seq<Value> {
    seq(|steps|, i requires 0 <= i < |steps| => UnparseStep(steps[i]))
  }

  /** Where the document for a step keeps each of its fields. */
  lemma UnparseStepFields(step: StepDefinition)
    requires Describable(step)
    ensures var d := UnparseStep(step).entries;
            && Get(d, "id") == FromNullable(step.id) && Get(d, "type") == FromNullable(step.stepType)
            && Get(d, "next") == FromNullable(step.next) && Get(d, "onTrue") == FromNullable(step.onTrue)
            && Get(d, "onFalse") == FromNullable(step.onFalse)
            && (map k | k in d && k !in ControlKeys :: d[k]) == step.config
            && !HasNullConfigValue(d)
  {
    var d := UnparseStep(step).entries;
    assert |"id"| == 2 && |"type"| == 4 && |"next"| == 4 && |"onTrue"| == 6 && |"onFalse"| == 7;
    assert "onTrue"[2] != "onFalse"[2];
    var config := map k | k in d && k !in ControlKeys :: d[k];
    assert config == step.config;
  }

  lemma ParseUnparseStep(step: StepDefinition)
    requires Describable(step)
    ensures ParseStep(UnparseStep(step)) == Ok(step)
  {
    UnparseStepFields(step);
  }

  /** A list whose head and tail parse parses to the head before the tail. */
  lemma ParseStepsCons(items: seq<Value>)
    requires |items| > 0 && ParseStep(items[0]).Ok? && ParseSteps(items[1..]).Ok?
    ensures ParseSteps(items) == Ok([ParseStep(items[0]).value] + ParseSteps(items[1..]).value)
  {
  }

  lemma {:induction false} ParseUnparseSteps(steps: seq<StepDefinition>)
    requires forall i :: 0 <= i < |steps| ==> Describable(steps[i])
    ensures ParseSteps(UnparseSteps(steps)) == Ok(steps)
    decreases |steps|
  {
    var items := UnparseSteps(steps);
    if |steps| > 0 {
      assert items[0] == UnparseStep(steps[0]);
      ParseUnparseStep(steps[0]);
      assert items[1..] == UnparseSteps(steps[1..]);
      ParseUnparseSteps(steps[1..]);
      ParseStepsCons(items);
      assert [steps[0]] + steps[1..] == steps;
    } else {
      assert items == [];
    }
  }

  lemma ParseUnparse(model: WorkflowDefinitionModel)
    requires forall i :: 0 <= i < |model.steps| ==> Describable(model.steps[i])
    ensures ParseWorkflow(Loaded(Unparse(model))) == Ok(model)
  {
    UnparseFields(model);
    var m := Unparse(model).entries;
    assert CastString(Get(m, "name")) == Ok(model.name);
    assert CastString(m["version"]) == Ok(model.version);
    assert CastMap(m["variables"]) == Ok(model.variables);
    ParseUnparseSteps(model.steps);
  }

  /** Where the document for a model keeps each of its fields. */
  lemma UnparseFields(model: WorkflowDefinitionModel)
    ensures var m := Unparse(model).entries;
            && Get(m, "name") == FromNullable(model.name)
            && "version" in m && m["version"] == FromNullable(model.version)
            && "variables" in m && m["variables"] == UnparseVariables(model.variables)
            && Get(m, "steps") == List(UnparseSteps(model.steps))
  {
    assert |"name"| == 4 && |"version"| == 7 && |"variables"| == 9 && |"steps"| == 5;
  }
}
